=== FILE: README.md ===
# Spreading activation: the two event-ordered engines

This project models the two working prototypes of a spreading-activation engine. Both run over a typed, weighted, directed graph. Seed nodes receive an initial strength. Activation then spreads along links, one hop at a time:

- a node may only activate children whose type sits next to its own type in the schema;
- the strength reaching a child is `parent * link_strength(w) * 0.8`, where `link_strength(w) = 1 / 2**w`;
- a child is scheduled only when that incoming strength exceeds `THRESHOLD = 0.05`;
- a scheduled child records the incoming strength times its own `node_strength(weight)`.

The two engines differ in how they schedule:

- **The continuous engine** (`one_by_one/one_by_one.py`) keeps a min-priority queue of `(time, strength, name)` tuples. It pops one event at a time and records it in the history. It schedules each valid child at `current_time + w`.
- **The stepwise engine** (`family-by-family/family-by-family.py`) keeps a deque of "families", the lists of nodes that activate together. Each step pops the front family and records it with the current step number, which starts at 0 and grows by exactly one per popped family (empty ones included). A child reached over a link of weight `w` joins the family `ceil(w)` steps ahead. A weight `w <= 0` is rejected.

All arithmetic is exact (`real`). Python's `2 ** w` is the parameter `pow2: Pow2`. It is any function that is positive, at least 1 and nondecreasing for nonnegative exponents, and exactly `2^n` at the naturals.

On a graph satisfying `GraphModel.WellFormed` (an assumption on the input, see "## Left out"), every exception the prototypes can raise becomes an `Err` value. A popped name missing from the graph gives `NodeNotFound`. A type missing from the schema gives `InvalidType` (`schema.index` raises). A stepwise link weight whose ceiling is not positive gives `InvalidWeight`.

Modules, in dependency order:

- `Results`: errors, `Option`, `Result`.
- `GraphModel`: nodes, links, graph.
- `SchemaAdjacency`: `get_valid_types_following`.
- `ActivationMath`: constants, strengths, transfer times.
- `EventOrder`: Python's tuple order on events.
- `ContinuousQueue`: the continuous `TimeQueue`.
- `Propagation`: node lookup and valid children, shared by both engines.
- `OneByOne`: the continuous engine.
- `FamilyByFamily`: the stepwise engine and its deque.

Each engine is written three ways:

- `Step`, a pure function for one loop iteration;
- `RunSteps`, at most `fuel` iterations;
- `Algo`, the loop as a method with invariants, proved equal to `RunSteps`.

The model follows the code in these behaviours, some of which are easy to misread:

- **Ties in the continuous queue.** They are not broken by insertion order. The queue compares whole tuples, so equal times are broken by strength and then by name (`EventOrder.EventLe`).
- **The threshold.** It is tested on the incoming strength, before the node's own attenuation is applied. A recorded strength can therefore be at or below `THRESHOLD` (`OneByOne.RecordedStrengthMayBeBelowThreshold`).
- **Time of the seeds.** The stepwise engine records the seed family at time 0, not 1 (`FamilyByFamily.SingletonRun`).
- **What the stepwise history holds.** It records `(current_time, family)` once per popped family, not one entry per node.
- **When a bad weight is caught.** The stepwise engine computes the transfer time, and so rejects a nonpositive weight, before the threshold test. A bad link therefore aborts the run even towards a child whose strength would have been discarded (`FamilyByFamily.EnqueueChild`).
- **No `EdgeNotFound`.** The edge between a node and one of its successors always exists, so the engine has no `EdgeNotFound` path.
- **Negative weights.** The continuous engine accepts any link weight, including a negative one, so its time-order results assume `NonNegativeLinks`.
- **The three-node stepwise test.** Its comment says `c` activates at time 0 together with `b`. The links in that test have weight 1, and no child ever joins the family being processed (`FamilyByFamily.StepQueue`). So `c` activates at time 1.

## Model

| member | source | states |
|---|---|---|
| ActivationMath.Attenuation | one_by_one/one_by_one.py:111-118 | `1 / 2**w` is positive, at most 1 for a nonnegative weight, and exactly 1 at weight 0 |
| ActivationMath.AttenuationDecreases | family-by-family/family-by-family.py:50-61 | a longer (heavier) link or node is never stronger: the strength is nonincreasing in the weight |
| ActivationMath.AttenuationAtNatural | family-by-family/family-by-family.py:55-61 | at a natural weight `n` the strength is exactly `1 / 2^n` |
| ActivationMath.ChildInput | one_by_one/one_by_one.py:173 | the strength reaching a child is positive for a positive parent and at most `0.8 * parent` over a nonnegative link |
| ActivationMath.HopDecays | family-by-family/family-by-family.py:72-116 | along one hop the strength the child records is at most 0.8 of the parent's |
| ActivationMath.Ceil | family-by-family/family-by-family.py:65 | `math.ceil`: the least integer `k` with `w <= k` (so `k - 1 < w`) |
| ActivationMath.StepwiseTransferTime | family-by-family/family-by-family.py:63-68 | fails with `InvalidWeight(w)` exactly when `w <= 0`; otherwise returns `ceil(w) >= 1` |
| SchemaAdjacency.IndexOf | one_by_one/one_by_one.py:101 | `schema.index`: absent exactly when the type is not in the schema, otherwise the FIRST position holding it |
| SchemaAdjacency.ValidTypesFollowing | one_by_one/one_by_one.py:98-108 | fails with `InvalidType` exactly when the type is absent; otherwise exactly the existing entries at positions index-1 and index+1, so at most two, and none for a one-entry schema |
| SchemaAdjacency.AdjacencyIsSymmetric | family-by-family/family-by-family.py:36-46 | on a schema without repeats, `b` follows `a` exactly when `a` follows `b` |
| EventOrder.EventLeTotalOrder | one_by_one/one_by_one.py:48-49 | the tuple order the heap and `sorted` use is reflexive, total, antisymmetric and transitive |
| Propagation.Expand | family-by-family/family-by-family.py:104-109 | the node lookup fails with `NodeNotFound` and the schema lookup with `InvalidType`, exactly in those cases; otherwise at most one candidate per link |
| Propagation.FilterLinksMembers | one_by_one/one_by_one.py:162-164 | a candidate is kept exactly when some successor link leads to a node whose type is valid and produces it |
| Propagation.ExpandMembers | one_by_one/one_by_one.py:162-173 | the candidates are exactly the links to schema-adjacent children, each carrying `parent * link_strength(w) * 0.8` |
| Propagation.CandidatesHaveNonNegativeWeights | one_by_one/one_by_one.py:166-171 | with nonnegative link weights every candidate's transfer delay is nonnegative |
| ContinuousQueue.AddNode | one_by_one/one_by_one.py:54-56 | `add_node` adds exactly the one tuple to the pending events and makes the queue truthy |
| ContinuousQueue.PopNode | one_by_one/one_by_one.py:58-60 | `pop_node` fails exactly on an empty queue; otherwise it returns a pending event that is least in tuple order and removes one copy of it and nothing else |
| ContinuousQueue.AsOrderedList | one_by_one/one_by_one.py:48-49 | `as_ordered_list` is sorted and is a permutation of the pending events |
| ContinuousQueue.SortedUnique | one_by_one/one_by_one.py:48-49 | two sorted permutations of the same events are equal, so the ordered view is determined by the queue's contents |
| ContinuousQueue.PopIsHeadOfOrderedList | one_by_one/one_by_one.py:48-60 | `pop_node` returns the head of `as_ordered_list`, and the ordered list afterwards is the old one without its head |
| ContinuousQueue.FreshQueueRoundTrip | one_by_one/one_by_one.py:80-88 | a fresh queue is falsy; adding one tuple and popping returns it unchanged and leaves the queue empty |
| ContinuousQueue.OrderedListExample | one_by_one/one_by_one.py:62-68 | the queue's own test: events added at times 2 then 1 are listed in time order |
| ContinuousQueue.OutwardTieBrokenByName | one_by_one/one_by_one.py:232-247 | in `test_outward`, `b` and `d` are both pending at time 1 with the same strength; whichever was added first, `b` is popped first, by name |
| OneByOne.QueueNodeActivation | one_by_one/one_by_one.py:126-135 | an incoming strength at or below the threshold leaves the queue unchanged; above it, exactly one event `(time, input * node_strength(weight), name)` is added |
| OneByOne.SpawnedMembers | one_by_one/one_by_one.py:166-175 | a child event is spawned exactly when a valid candidate passes the gate, at `now + w` with the attenuated strength |
| OneByOne.EnqueueChildrenContents | one_by_one/one_by_one.py:166-175 | the inner loop adds to the queue exactly the spawned events, and removes nothing |
| OneByOne.SeedEventsMembers | one_by_one/one_by_one.py:146-147 | a seed event exists exactly when a start pair passes the gate; it is at time 0 |
| OneByOne.SeedContents | one_by_one/one_by_one.py:146-147 | seeding adds exactly the seed events to the queue |
| OneByOne.InitTimeOrdered | one_by_one/one_by_one.py:143-149 | after seeding every pending event is at time 0, so none is before `current_time` |
| OneByOne.Step | one_by_one/one_by_one.py:153-175 | a step fails exactly when the popped name is not a node or its type is not in the schema; on success the popped tuple is appended to the history and becomes `current_time` |
| OneByOne.StepQueue | one_by_one/one_by_one.py:156-175 | after a step the queue holds exactly what the pop left plus the popped node's spawned children |
| OneByOne.StepQueueNotEarlier | one_by_one/one_by_one.py:166-175 | with nonnegative link weights nothing pending after a step is earlier than the event just popped |
| OneByOne.StepKeepsTimeOrder | one_by_one/one_by_one.py:153-171 | with nonnegative link weights a step keeps history times nondecreasing and no pending event earlier than `current_time` |
| OneByOne.RunFromInitTimeOrdered | one_by_one/one_by_one.py:139-178 | with nonnegative link weights a successful run records its events in nondecreasing time order |
| OneByOne.Algo | one_by_one/one_by_one.py:139-178 | the loop computes exactly the run; it records at most one event per iteration, stops early only on an empty queue, and keeps the history in time order under nonnegative weights |
| OneByOne.IsolatedNodeRun | one_by_one/one_by_one.py:139-178 | a lone node without links, seeded above the threshold, is recorded once at time 0 with its attenuated strength, and the queue empties |
| OneByOne.SingleNodeRun | one_by_one/one_by_one.py:181-195 | the single-node test records exactly `(0, 1, 'value_prop')` |
| OneByOne.RecordedStrengthMayBeBelowThreshold | one_by_one/one_by_one.py:126-135 | a seed of strength 1 on a node of weight 5 passes the gate and is recorded with 1/32, below the threshold |
| FamilyByFamily.PadToGet | family-by-family/family-by-family.py:22-24 | padding appends only empty families and changes none of the existing ones |
| FamilyByFamily.AddNode | family-by-family/family-by-family.py:19-28 | after `add_node(i, s, n)` the length is `max(len, i + 1)` and family `i` is the old family `i` followed by `(s, n)` |
| FamilyByFamily.AddNodeGet | family-by-family/family-by-family.py:19-28 | `add_node(i, ...)` leaves every other family unchanged |
| FamilyByFamily.PopFamily | family-by-family/family-by-family.py:30-32 | `pop_family` fails exactly on an empty deque; otherwise the front family followed by the rest rebuilds the deque |
| FamilyByFamily.QueueNodeActivation | family-by-family/family-by-family.py:72-82 | at or below the threshold nothing changes; above it the node joins family `steps - 1` with strength `input * node_strength(weight)` |
| FamilyByFamily.EnqueueChild | family-by-family/family-by-family.py:111-118 | one child fails with `InvalidWeight` exactly when its link weight is not positive, whatever its strength; a gated child leaves the deque unchanged |
| FamilyByFamily.EnqueueChildrenFails | family-by-family/family-by-family.py:111-118 | the inner loop fails exactly when some valid child's link weight is not positive |
| FamilyByFamily.EnqueueChildGet | family-by-family/family-by-family.py:113-118 | one child adds to family `j` only when it passes the gate and `ceil(w) = j + 1`, and then only its own entry |
| FamilyByFamily.EnqueueChildrenGet | family-by-family/family-by-family.py:111-118 | the inner loop appends to each family `j` exactly the children that arrive there, in link order |
| FamilyByFamily.ExpandFamilyFails | family-by-family/family-by-family.py:104-118 | processing a family fails exactly when one of its entries has a missing node, a type outside the schema, or a valid child over a nonpositive weight |
| FamilyByFamily.ExpandFamilyGet | family-by-family/family-by-family.py:104-118 | processing a family appends to each family `j` exactly the arrivals of its entries for `j`, in processing order |
| FamilyByFamily.ArrivalIn | family-by-family/family-by-family.py:104-118 | a child of any entry of the family that passes the gate with `ceil(w) = j + 1` is among the family's arrivals for `j` |
| FamilyByFamily.ChildArrival | family-by-family/family-by-family.py:63-82 | a child that passes the gate over a positive weight `w` has transfer time at least 1 and is among the family's arrivals for family `ceil(w) - 1` of the deque left after the pop |
| FamilyByFamily.SeedGet | family-by-family/family-by-family.py:92-93 | seeding appends the seeds that pass the gate to the front family, in start order, and touches no other family |
| FamilyByFamily.InitQueue | family-by-family/family-by-family.py:89-95 | after seeding the deque is the single family of seeds, or empty when no seed passes the gate |
| FamilyByFamily.Step | family-by-family/family-by-family.py:97-118 | on success the popped family is recorded with `current_time`, and the time advances by exactly one |
| FamilyByFamily.StepQueue | family-by-family/family-by-family.py:100-118 | after a step, family `j` is the old family `j + 1` followed by the popped family's arrivals for `j`; nothing joins the family being processed |
| FamilyByFamily.StepFails | family-by-family/family-by-family.py:104-118 | a step fails exactly when an entry of the popped family fails |
| FamilyByFamily.EmptyFamilyStep | family-by-family/family-by-family.py:97-103 | an empty padding family is still recorded and still advances the time by one |
| FamilyByFamily.StepClocked | family-by-family/family-by-family.py:97-103 | a step keeps history entry `k` at time `k` and `current_time` equal to the number of popped families |
| FamilyByFamily.RunStepsExtends | family-by-family/family-by-family.py:97-103 | a run only appends to the history and keeps entry `k` at time `k` |
| FamilyByFamily.SlotRecordedLater | family-by-family/family-by-family.py:97-103 | if the run gets that far, what family `j` holds now is recorded `j` steps later, at time `now + j`, possibly followed by later arrivals |
| FamilyByFamily.SlotMemberRecordedLater | family-by-family/family-by-family.py:97-103 | if the run gets that far, an entry now in family `j` is in the family recorded `j` steps later |
| FamilyByFamily.StepPlacesArrival | family-by-family/family-by-family.py:100-118 | after a step every arrival of the popped family for `j` sits in family `j` |
| FamilyByFamily.ArrivalRecordedLater | family-by-family/family-by-family.py:97-118 | if the run gets that far, an arrival for family `j` of the family popped at history position `p` is recorded at position `p + 1 + j`; with `ChildArrival` this puts a child `ceil(w)` steps after its parent |
| FamilyByFamily.RunReaches | family-by-family/family-by-family.py:97-103 | a successful run cannot stop while an entry is pending: an entry in family `j`, with more than `j` iterations of fuel, keeps `while tq:` running until that family is recorded |
| FamilyByFamily.SlotMemberReached | family-by-family/family-by-family.py:97-103 | an entry pending in family `j`, with more than `j` iterations of fuel, is in the family the run records `j` steps later |
| FamilyByFamily.ArrivalReached | family-by-family/family-by-family.py:97-118 | an arrival for family `j` of the popped family, with more than `j + 1` iterations of fuel, makes the run reach history position `p + 1 + j` |
| FamilyByFamily.ChildRecordedIn | family-by-family/family-by-family.py:97-118 | a child that passes the gate with transfer time `j + 1`, from an entry of the front family, is recorded: given more than `j + 1` iterations of fuel the run reaches the family recorded `j + 1` steps later, and the child is in it |
| FamilyByFamily.ChildRecordedAfter | family-by-family/family-by-family.py:63-118 | a child that passes the gate over a link of transfer time `k`, from an entry of the family recorded at time `t`, is recorded: given more than `k` iterations of fuel the run reaches the family recorded at time `t + k`, and the child is in it |
| FamilyByFamily.Algo | family-by-family/family-by-family.py:85-119 | the loop computes exactly the run; history entry `k` has time `k`, at most `fuel` entries, an empty deque when it stops early, and the seed family first |
| FamilyByFamily.IsolatedNodeRun | family-by-family/family-by-family.py:85-119 | a lone node without links, seeded above the threshold, is recorded once at time 0 with its attenuated strength, and the deque empties |
| FamilyByFamily.SingletonRun | family-by-family/family-by-family.py:120-136 | the singleton test records exactly `[(0, [(1, 'value_prop')])]` |
| FamilyByFamily.TwoNodeStrength | family-by-family/family-by-family.py:138-153 | in the two-node test `c` receives `link_strength(0.2) * 0.8`, which lies between 0.4 and 0.8 |
| FamilyByFamily.TwoNodeFirstStep | family-by-family/family-by-family.py:138-153 | in the two-node test, popping `b` at time 0 puts `c` alone in the next family |
| FamilyByFamily.TwoNodeRun | family-by-family/family-by-family.py:138-153 | the two-node test records `b` at time 0 and `c` at time 1, and then stops |

## Left out

- networkx: replaced by a map of node records and a map of ordered successor lists. A successor list may name the same target twice, which a `DiGraph` cannot; no result depends on that.
- GraphModel.WellFormed: an assumption on the input graph, not something networkx guarantees. It requires every successor to be a node and every node's `name` attribute to equal its key. The tests set the `name` attribute by hand, and the engines rely on it: the continuous engine records and looks up `current_node['name']` rather than the popped name (one_by_one/one_by_one.py:158-168), and the stepwise engine queues `node['name']` (family-by-family/family-by-family.py:82). A graph whose `name` attributes differ from their keys is outside the model.
- The continuous queue's heap layout: the queue is its multiset of pending events. Only the contents decide what is popped and what `as_ordered_list` returns. `__str__` is left out.
- asyncio: `await` plumbing only, with no concurrency in the engines. The wall-clock timer and `elapsed_time` are also left out, as are every `print` and version report and the networkx sanity tests at the top of the continuous engine's file.
- IEEE floating point: `2 ** w` is the `pow2` parameter, with the properties above and no rounding.
- Termination: both runs take `fuel`, a bound on loop iterations. A run that needs more iterations stops with the queue still nonempty. `Algo`'s contracts say when that happened. Termination of the unbounded loop is not proved.
- The continuous engine's tests `test_two`, `test_three` and `test_outward` are not evaluated as whole runs, because evaluating them concretely is costly. Their timing and strengths follow from `OneByOne.SpawnedMembers`, `OneByOne.StepQueue` and `ContinuousQueue.PopNode`, and `ContinuousQueue.OutwardTieBrokenByName` states the one tie `test_outward` meets.
- The stepwise three-node and outward tests are not evaluated as whole runs either, for the same reason. Their timing follows from `FamilyByFamily.ChildRecordedAfter`.
- `lockstep/main.py`, `one_by_one/main.py`, `one_by_one/time_queue.py` and `one_by_one/graph.py` are not part of this model. They are earlier drafts that cannot run or do not parse.
- FamilyByFamily.QueueNodeActivation: requires `steps >= 1`. Every caller passes 1 or a checked transfer time of at least 1. With 0, Python's index -1 would append to the last family.
- FamilyByFamily.PopFamily: returns `None` on an empty deque, where `popleft` raises. The loop never pops an empty deque.
- Propagation.FilterLinks: its own contract only bounds the length; what it keeps is stated by `FilterLinksMembers`.
- OneByOne.Spawned: its own contract only bounds the length; its contents are stated by `SpawnedMembers`.
- OneByOne.EnqueueChildren: the inner loop of one_by_one/one_by_one.py:166-175; it has no contract of its own, and what it adds is stated by `EnqueueChildrenContents` and `StepQueue`.
- OneByOne.Seed: the seeding loop of one_by_one/one_by_one.py:146-147; it has no contract of its own, and what it adds is stated by `SeedContents` and `SeedEventsMembers`.
- OneByOne.Init: seeding plus the initial state; it has no contract of its own, and its queue is described by `InitTimeOrdered`.
- OneByOne.RunSteps: its own contract only keeps `TimeOrdered`; `Algo` proves the loop equal to it, and `RunFromInitTimeOrdered` states its time order.
- FamilyByFamily.EnqueueChildren: the inner loop of family-by-family/family-by-family.py:111-118; it has no contract of its own, and it is described by `EnqueueChildrenFails` and `EnqueueChildrenGet`.
- FamilyByFamily.ExpandFamily: the loop over a family at family-by-family/family-by-family.py:104-118; it has no contract of its own, and it is described by `ExpandFamilyFails`, `ExpandFamilyGet` and `ArrivalIn`.
- FamilyByFamily.Seed: the seeding loop of family-by-family/family-by-family.py:92-93; it has no contract of its own, and it is described by `SeedGet`.
- FamilyByFamily.Init: seeding plus the initial state; it has no contract of its own, and its deque is described by `InitQueue`.
- FamilyByFamily.RunSteps: it has no contract of its own; `Algo` proves the loop equal to it, and `RunStepsExtends`, `SlotRecordedLater` and `ArrivalRecordedLater` state what it records.
- ContinuousQueue.IsNonEmpty: `__bool__` at one_by_one/one_by_one.py:51-52, a predicate with no contract; `AddNode`, `PopNode` and `FreshQueueRoundTrip` state when it holds.
- EventOrder.NameLe: Python's `str` comparison, code point by code point, with a proper prefix first; it has no contract of its own, and `NameLeReflexive`, `NameLeTotal`, `NameLeAntisymmetric`, `NameLeTransitive` and `EventLeTotalOrder` state that it is a total order.
- FamilyByFamily.SlotRecordedLater: assumes the run reaches position `|history| + j`. With more than `j` iterations of fuel and a nonempty family `j`, `RunReaches` proves that it does.
- FamilyByFamily.SlotMemberRecordedLater: assumes the run reaches the position; `SlotMemberReached` states the same fact with that position proved reached.
- FamilyByFamily.ArrivalRecordedLater: assumes the run reaches the position; `ArrivalReached` proves it is reached given enough fuel, and `ChildRecordedAfter` combines the two.

=== FILE: activation_math.dfy ===
/** Attenuation, decay and transfer-time arithmetic, in exact real arithmetic. */
module ActivationMath {
  import opened Results

  /** Fixed per-hop multiplicative decay. */
  const ActivationDecay: real := 0.8

  /** Minimum incoming strength for a node to be scheduled at all. */
  const Threshold: real := 0.05

  /** 2^n for a natural exponent; monotone in n. */
  function Exp2(n: nat): (r: real)
    ensures r >= 1.0
    ensures forall m: nat :: m <= n ==> Exp2(m) <= r
  {
    if n == 0 then 1.0 else 2.0 * Exp2(n - 1)
  }

  /** The properties of `2 ** w` that the engines rely on: positive everywhere,
      at least 1 and nondecreasing for nonnegative exponents, and exact at the
      natural numbers. IEEE rounding is not part of it. */
  ghost predicate IsPow2(f: real -> real) {
    && (forall w :: 0.0 < f(w))
    && (forall w :: 0.0 <= w ==> 1.0 <= f(w))
    && (forall a, b :: 0.0 <= a <= b ==> f(a) <= f(b))
    && (forall n: nat :: f(n as real) == Exp2(n))
  }

  /** One function satisfying IsPow2, so that the type below is inhabited. */
  function FloorPow2(w: real): real {
    if w < 0.0 then 1.0 else Exp2(w.Floor)
  }

  /** A stand-in for Python's `2 ** w`, supplied by the caller. */
  type Pow2 = f: real -> real | IsPow2(f) witness FloorPow2

  /** `1 / 2 ** w`: the attenuation used both as node strength
      (`get_node_strength`) and as link strength (`get_link_strength`). */
  function Attenuation(pow2: Pow2, w: real): (s: real)
    ensures 0.0 < s
    ensures 0.0 <= w ==> s <= 1.0
    ensures w == 0.0 ==> s == 1.0
  {
    assert pow2(0.0) == Exp2(0) == 1.0;
    1.0 / pow2(w)
  }

  /** The strength a node records when `input` reaches it:
      `input * node_strength(weight)`. */
  function Attenuated(pow2: Pow2, input: real, w: real): real {
    input * Attenuation(pow2, w)
  }

  /** Strength reaching a child over a link of weight `w` from a parent of
      strength `parent`: `parent * link_strength(w) * ACTIVATION_DECAY`. */
  function ChildInput(pow2: Pow2, parent: real, w: real): (r: real)
    ensures 0.0 < parent ==> 0.0 < r
    ensures 0.0 <= parent && 0.0 <= w ==> r <= ActivationDecay * parent
  {
    parent * Attenuation(pow2, w) * ActivationDecay
  }

  /** Smallest integer not below `w` (Python's `math.ceil`). */
  function Ceil(w: real): (k: int)
    ensures (k - 1) as real < w <= k as real
  {
    -((-w).Floor)
  }

  /** Stepwise transfer time: `ceil(weight)`, rejected when it is not positive. */
  function StepwiseTransferTime(w: real): (r: Result<nat>)
    ensures r.Err? <==> w <= 0.0
    ensures r.Err? ==> r.error == InvalidWeight(w)
    ensures r.Ok? ==> 1 <= r.value && (r.value - 1) as real < w <= r.value as real
  {
    var k := Ceil(w);
    if k <= 0 then Err(InvalidWeight(w)) else Ok(k)
  }

  /** Attenuation is nonincreasing in the weight, for nonnegative weights. */
  lemma AttenuationDecreases(pow2: Pow2, a: real, b: real)
    requires 0.0 <= a <= b
    ensures Attenuation(pow2, b) <= Attenuation(pow2, a)
  {
    var pa, pb := pow2(a), pow2(b);
    assert 1.0 <= pa <= pb;
    assert 1.0 / pb <= 1.0 / pa by {
      assert (1.0 / pb) * pb == 1.0 == (1.0 / pa) * pa;
    }
  }

  /** Attenuation is exactly 1 / 2^n at a natural weight n. */
  lemma AttenuationAtNatural(pow2: Pow2, n: nat)
    ensures Attenuation(pow2, n as real) == 1.0 / Exp2(n)
  {
    assert pow2(n as real) == Exp2(n);
  }

  /** Along one hop the strength recorded for the child (incoming strength times the
      child's own attenuation) is at most 0.8 of the parent's: the decay that
      bounds how far activation spreads. */
  lemma HopDecays(pow2: Pow2, parent: real, linkWeight: real, childWeight: real)
    requires 0.0 <= parent && 0.0 <= linkWeight && 0.0 <= childWeight
    ensures ChildInput(pow2, parent, linkWeight) * Attenuation(pow2, childWeight) <= ActivationDecay * parent
  {
    var i := ChildInput(pow2, parent, linkWeight);
    var a := Attenuation(pow2, childWeight);
    assert 0.0 <= i <= ActivationDecay * parent;
    assert i * a <= i * 1.0;
  }
}

=== FILE: continuous_queue.dfy ===
/** The continuous engine's `TimeQueue`: a min-priority queue of events.
    The heap's array is modelled by its contents, `pending`, which the heap
    holds in some permutation; pops and the ordered view depend only on the
    multiset of pending events. */
module ContinuousQueue {
  import opened Results
  import opened GraphModel
  import opened EventOrder

  datatype TimeQueue = TimeQueue(pending: seq<Event>)

  /** A fresh `TimeQueue()`. */
  function Empty(): TimeQueue {
    TimeQueue([])
  }

  /** `__bool__`: the queue is truthy exactly when some event is pending. */
  predicate IsNonEmpty(q: TimeQueue) {
    |q.pending| > 0
  }

  /** `add_node`: put one event into the queue. */
  function AddNode(q: TimeQueue, time: real, strength: real, name: Name): (r: TimeQueue)
    ensures multiset(r.pending) == multiset(q.pending) + multiset{Event(time, strength, name)}
    ensures IsNonEmpty(r)
  {
    TimeQueue(q.pending + [Event(time, strength, name)])
  }

  /** The first least event of a nonempty sequence. */
  function MinEvent(s: seq<Event>): (m: Event)
    requires |s| > 0
    ensures m in s
    ensures forall x :: x in s ==> EventLe(m, x)
  {
    if |s| == 1 then
      EventLeTotalOrder(s[0], s[0], s[0]);
      s[0]
    else
      var m' := MinEvent(s[1..]);
      EventLeTotalOrder(s[0], m', s[0]);
      forall x | x in s[1..]
        ensures EventLe(s[0], m') ==> EventLe(s[0], x)
      {
        EventLeTotalOrder(s[0], m', x);
      }
      if EventLe(s[0], m') then s[0] else m'
  }

  /** `s` without the first occurrence of `x`. */
  function RemoveFirst(s: seq<Event>, x: Event): (r: seq<Event>)
    requires x in s
    ensures multiset(r) == multiset(s) - multiset{x}
  {
    if s[0] == x then
      assert s == [s[0]] + s[1..];
      s[1..]
    else
      assert s == [s[0]] + s[1..];
      [s[0]] + RemoveFirst(s[1..], x)
  }

  /** `pop_node` (`get_nowait`): remove and return a least pending event;
      `None` is the QueueEmpty signal. */
  function PopNode(q: TimeQueue): (r: Option<(Event, TimeQueue)>)
    ensures r.None? <==> !IsNonEmpty(q)
    ensures r.Some? ==> r.value.0 in q.pending
    ensures r.Some? ==> forall x :: x in q.pending ==> EventLe(r.value.0, x)
    ensures r.Some? ==> multiset(r.value.1.pending) == multiset(q.pending) - multiset{r.value.0}
  {
    if |q.pending| == 0 then None
    else
      var m := MinEvent(q.pending);
      Some((m, TimeQueue(RemoveFirst(q.pending, m))))
  }

  /** Insert `e` into a sorted sequence, keeping it sorted. */
  function Insert(e: Event, s: seq<Event>): (r: seq<Event>)
    requires Sorted(s)
    ensures Sorted(r)
    ensures multiset(r) == multiset(s) + multiset{e}
  {
    if |s| == 0 then [e]
    else if EventLe(e, s[0]) then
      assert s == [s[0]] + s[1..];
      forall x | x in s
        ensures EventLe(e, x)
      {
        SortedHeadLe(s, x);
        EventLeTotalOrder(e, s[0], x);
      }
      LeadSorted(e, s);
      [e] + s
    else
      var t := Insert(e, s[1..]);
      EventLeTotalOrder(s[0], e, e);
      forall x | x in t
        ensures EventLe(s[0], x)
      {
        assert x in multiset(t);
        if x != e {
          assert x in multiset(s[1..]);
          SortedHeadLe(s, x);
        }
      }
      assert s == [s[0]] + s[1..];
      LeadSorted(s[0], t);
      [s[0]] + t
  }

  /** The head of a sorted sequence is below every element of it. */
  lemma SortedHeadLe(s: seq<Event>, x: Event)
    requires Sorted(s)
    requires x in s
    ensures EventLe(s[0], x)
  {
    var k :| 0 <= k < |s| && s[k] == x;
    if k == 0 {
      EventLeTotalOrder(x, x, x);
    }
  }

  /** Putting in front of a sorted sequence an event below all of it keeps it sorted. */
  lemma LeadSorted(e: Event, s: seq<Event>)
    requires Sorted(s)
    requires forall x :: x in s ==> EventLe(e, x)
    ensures Sorted([e] + s)
  {
    var r := [e] + s;
    forall i, j | 0 <= i < j < |r|
      ensures EventLe(r[i], r[j])
    {
      if i == 0 {
        assert r[j] == s[j - 1];
      } else {
        assert r[i] == s[i - 1] && r[j] == s[j - 1];
      }
    }
  }

  /** Insertion sort of a sequence of events. */
  function SortEvents(s: seq<Event>): (r: seq<Event>)
    ensures Sorted(r)
    ensures multiset(r) == multiset(s)
  {
    if |s| == 0 then []
    else
      assert s == [s[0]] + s[1..];
      Insert(s[0], SortEvents(s[1..]))
  }

  /** `as_ordered_list`: the pending events in ascending (time, strength, name) order. */
  function AsOrderedList(q: TimeQueue): (r: seq<Event>)
    ensures Sorted(r)
    ensures multiset(r) == multiset(q.pending)
  {
    SortEvents(q.pending)
  }

  /** Two sorted sequences with the same elements are equal: the ordered view is unique. */
  lemma {:induction false} SortedUnique(a: seq<Event>, b: seq<Event>)
    requires Sorted(a) && Sorted(b)
    requires multiset(a) == multiset(b)
    ensures a == b
  {
    if |a| > 0 {
      assert a[0] in multiset(b) && |b| > 0;
      assert b[0] in multiset(a);
      SortedHeadLe(b, a[0]);
      SortedHeadLe(a, b[0]);
      EventLeTotalOrder(a[0], b[0], a[0]);
      assert a[0] == b[0];
      TailMultiset(a);
      TailMultiset(b);
      SortedTail(a);
      SortedTail(b);
      SortedUnique(a[1..], b[1..]);
    } else {
      assert |multiset(b)| == 0;
    }
  }

  /** `pop_node` hands out the head of `as_ordered_list`, and what remains is, in
      order, the rest of that list. */
  lemma PopIsHeadOfOrderedList(q: TimeQueue)
    requires IsNonEmpty(q)
    ensures PopNode(q).Some?
    ensures PopNode(q).value.0 == AsOrderedList(q)[0]
    ensures AsOrderedList(PopNode(q).value.1) == AsOrderedList(q)[1..]
  {
    var ol := AsOrderedList(q);
    PopHeadIsFirst(q);
    var rest := PopNode(q).value.1;
    TailMultiset(ol);
    SortedTail(ol);
    SortedUnique(AsOrderedList(rest), ol[1..]);
  }

  /** Dropping the head of a nonempty sequence removes one copy of it. */
  lemma TailMultiset(s: seq<Event>)
    requires 0 < |s|
    ensures multiset(s[1..]) == multiset(s) - multiset{s[0]}
  {
    assert s == [s[0]] + s[1..];
  }

  /** The popped event is the first of the ordered list. */
  lemma PopHeadIsFirst(q: TimeQueue)
    requires IsNonEmpty(q)
    ensures PopNode(q).Some? && 0 < |AsOrderedList(q)|
    ensures PopNode(q).value.0 == AsOrderedList(q)[0]
  {
    var ol := AsOrderedList(q);
    var m := PopNode(q).value.0;
    assert |ol| > 0 by { assert |multiset(ol)| == |multiset(q.pending)|; }
    assert ol[0] in multiset(q.pending);
    assert EventLe(m, ol[0]);
    assert m in multiset(ol);
    SortedHeadLe(ol, m);
    EventLeTotalOrder(m, ol[0], m);
  }

  lemma SortedTail(s: seq<Event>)
    requires Sorted(s) && |s| > 0
    ensures Sorted(s[1..])
  {
    forall i, j | 0 <= i < j < |s| - 1
      ensures EventLe(s[1..][i], s[1..][j])
    {
      assert s[1..][i] == s[i + 1] && s[1..][j] == s[j + 1];
    }
  }

  /** A fresh queue is falsy; one added event pops back unchanged and leaves the queue empty. */
  lemma FreshQueueRoundTrip(time: real, strength: real, name: Name)
    ensures !IsNonEmpty(Empty())
    ensures PopNode(AddNode(Empty(), time, strength, name)) == Some((Event(time, strength, name), Empty()))
  {
    var e := Event(time, strength, name);
    assert AddNode(Empty(), time, strength, name).pending == [e];
    assert MinEvent([e]) == e;
    assert RemoveFirst([e], e) == [];
  }

  /** The example the queue's own test uses: events at times 2 and 1 come out in time order. */
  lemma OrderedListExample()
    ensures AsOrderedList(AddNode(AddNode(Empty(), 2.0, 0.0, "a"), 1.0, 0.0, "b"))
         == [Event(1.0, 0.0, "b"), Event(2.0, 0.0, "a")]
  {
    var q := AddNode(AddNode(Empty(), 2.0, 0.0, "a"), 1.0, 0.0, "b");
    var a := Event(2.0, 0.0, "a");
    var b := Event(1.0, 0.0, "b");
    assert q.pending == [a, b];
    assert EventLe(b, a);
    assert Sorted([b, a]);
    assert multiset([b, a]) == multiset(q.pending);
    SortedUnique(AsOrderedList(q), [b, a]);
  }

  /** `test_outward`: `b` and `d` are both reached at time 1 with the same strength.
      Whichever was added first, the pop returns `b`, since ties fall to the name. */
  lemma OutwardTieBrokenByName(x: real)
    ensures PopNode(TimeQueue([Event(1.0, x, "d"), Event(1.0, x, "b")])).value.0 == Event(1.0, x, "b")
    ensures PopNode(TimeQueue([Event(1.0, x, "b"), Event(1.0, x, "d")])).value.0 == Event(1.0, x, "b")
  {
    assert !NameLe("d", "b");
  }
}

=== FILE: event_order.dfy ===
/** Activation events of the continuous engine and the order Python's tuple
    comparison puts them in: by time, then strength, then node name. */
module EventOrder {
  import opened GraphModel

  /** The tuple `(activation_time, activation_strength, node_name)`. */
  datatype Event = Event(time: real, strength: real, name: Name)

  /** Python's `str` ordering: lexicographic by code point, a proper prefix first. */
  predicate NameLe(a: Name, b: Name) {
    |a| == 0 || (|b| > 0 && (a[0] < b[0] || (a[0] == b[0] && NameLe(a[1..], b[1..]))))
  }

  /** Python's tuple ordering on events. */
  predicate EventLe(x: Event, y: Event) {
    || x.time < y.time
    || (x.time == y.time && x.strength < y.strength)
    || (x.time == y.time && x.strength == y.strength && NameLe(x.name, y.name))
  }

  predicate Sorted(s: seq<Event>) {
    forall i, j :: 0 <= i < j < |s| ==> EventLe(s[i], s[j])
  }

  lemma {:induction false} NameLeReflexive(a: Name)
    ensures NameLe(a, a)
  {
    if |a| > 0 {
      NameLeReflexive(a[1..]);
    }
  }

  lemma {:induction false} NameLeTotal(a: Name, b: Name)
    ensures NameLe(a, b) || NameLe(b, a)
  {
    if |a| > 0 && |b| > 0 && a[0] == b[0] {
      NameLeTotal(a[1..], b[1..]);
    }
  }

  lemma {:induction false} NameLeAntisymmetric(a: Name, b: Name)
    requires NameLe(a, b) && NameLe(b, a)
    ensures a == b
  {
    if |a| > 0 {
      NameLeAntisymmetric(a[1..], b[1..]);
      assert a == [a[0]] + a[1..] && b == [b[0]] + b[1..];
    }
  }

  lemma {:induction false} NameLeTransitive(a: Name, b: Name, c: Name)
    requires NameLe(a, b) && NameLe(b, c)
    ensures NameLe(a, c)
  {
    if |a| > 0 && a[0] == b[0] && b[0] == c[0] {
      NameLeTransitive(a[1..], b[1..], c[1..]);
    }
  }

  /** The event order is a total order: reflexive, total, antisymmetric, transitive. */
  lemma EventLeTotalOrder(x: Event, y: Event, z: Event)
    ensures EventLe(x, x)
    ensures EventLe(x, y) || EventLe(y, x)
    ensures EventLe(x, y) && EventLe(y, x) ==> x == y
    ensures EventLe(x, y) && EventLe(y, z) ==> EventLe(x, z)
  {
    NameLeReflexive(x.name);
    NameLeTotal(x.name, y.name);
    if EventLe(x, y) && EventLe(y, x) {
      NameLeAntisymmetric(x.name, y.name);
    }
    if EventLe(x, y) && EventLe(y, z) && x.time == y.time == z.time && x.strength == y.strength == z.strength {
      NameLeTransitive(x.name, y.name, z.name);
    }
  }
}

=== FILE: family_by_family.dfy ===
/** The stepwise ("family-by-family") engine: simulated time advances by one per
    step, every step pops the whole family of nodes activated at that time, and a
    child reached over a link of weight `w` joins the family `ceil(w)` steps ahead. */
module FamilyByFamily {
  import opened Results
  import opened GraphModel
  import opened ActivationMath
  import opened Propagation
  import opened SchemaAdjacency

  /** One queued activation `(output_activation_strength, node_name)`. */
  datatype Entry = Entry(strength: real, name: Name)

  /** The nodes that activate together in one simulated step. */
  type Family = seq<Entry>

  /** The deque of families: the family at position `j` is popped `j` steps after
      the front one. */
  type TimeQueue = seq<Family>

  /** Family `j` of `q`; positions past the end read as the empty family. */
  function Get(q: TimeQueue, j: nat): Family {
    if j < |q| then q[j] else []
  }

  /** The padding loop of `add_node`: append empty families until index `i` exists. */
  function PadTo(q: TimeQueue, i: nat): (r: TimeQueue)
    ensures |r| == if i < |q| then |q| else i + 1
    decreases if i < |q| then 0 else i + 1 - |q|
  {
    if i < |q| then q else PadTo(q + [[]], i)
  }

  /** Padding leaves every family as it was, the new ones being empty. */
  lemma {:induction false} PadToGet(q: TimeQueue, i: nat, j: nat)
    ensures Get(PadTo(q, i), j) == Get(q, j)
    decreases if i < |q| then 0 else i + 1 - |q|
  {
    if i >= |q| {
      PadToGet(q + [[]], i, j);
    }
  }

  /** `add_node(i, strength, name)`: family `i` (created empty if missing) gains the
      entry at its end and every other family is left as it was. */
  function AddNode(q: TimeQueue, i: nat, strength: real, name: Name): (r: TimeQueue)
    ensures |r| == if i < |q| then |q| else i + 1
    ensures r[i] == Get(q, i) + [Entry(strength, name)]
  {
    var p := PadTo(q, i);
    PadToGet(q, i, i);
    p[i := p[i] + [Entry(strength, name)]]
  }

  /** `add_node` read position by position: only family `i` changes, by one entry. */
  lemma {:induction false} AddNodeGet(q: TimeQueue, i: nat, strength: real, name: Name, j: nat)
    ensures Get(AddNode(q, i, strength, name), j) == Get(q, j) + (if j == i then [Entry(strength, name)] else [])
  {
    PadToGet(q, i, j);
  }

  /** `pop_family`: the front family and the rest of the deque; `None` on an empty
      deque, where `popleft` raises. */
  function PopFamily(q: TimeQueue): (r: Option<(Family, TimeQueue)>)
    ensures r.None? <==> |q| == 0
    ensures r.Some? ==> [r.value.0] + r.value.1 == q
  {
    if |q| == 0 then None else Some((q[0], q[1..]))
  }

  /** `queue_node_activation(tq, steps, input, node)`: the threshold gate on the
      INCOMING strength; past it the node joins family `steps - 1` with its own
      attenuation applied. */
  function QueueNodeActivation(pow2: Pow2, q: TimeQueue, steps: nat, input: real, node: Node): (r: TimeQueue)
    requires 1 <= steps
    ensures input <= Threshold ==> r == q
    ensures Threshold < input ==>
              && |r| == (if steps - 1 < |q| then |q| else steps)
              && r[steps - 1] == Get(q, steps - 1) + [Entry(Attenuated(pow2, input, node.weight), node.name)]
  {
    if input > Threshold then AddNode(q, steps - 1, Attenuated(pow2, input, node.weight), node.name)
    else q
  }

  /** The entry a candidate that passes the gate is queued as. */
  function ChildEntry(pow2: Pow2, c: Candidate): Entry {
    Entry(Attenuated(pow2, c.input, c.child.weight), c.child.name)
  }

  /** One turn of `for child in valid_children`. The transfer time is computed, and a
      nonpositive link weight rejected, BEFORE the gate: a bad weight aborts the run
      even when the child's strength would not pass the threshold. */
  function EnqueueChild(pow2: Pow2, q: TimeQueue, c: Candidate): (r: Result<TimeQueue>)
    ensures r.Err? <==> c.linkWeight <= 0.0
    ensures r.Err? ==> r.error == InvalidWeight(c.linkWeight)
    ensures r.Ok? && c.input <= Threshold ==> r.value == q
  {
    var k :- StepwiseTransferTime(c.linkWeight);
    Ok(QueueNodeActivation(pow2, q, k, c.input, c.child))
  }

  /** The inner loop over a parent's valid children, aborting at the first bad weight. */
  function EnqueueChildren(pow2: Pow2, q: TimeQueue, cands: seq<Candidate>): Result<TimeQueue>
    decreases |cands|
  {
    if |cands| == 0 then Ok(q)
    else
      var q' :- EnqueueChild(pow2, q, cands[0]);
      EnqueueChildren(pow2, q', cands[1..])
  }

  /** The entries the candidates add to family `j`, in candidate order: one for each
      candidate that passes the gate and whose transfer time `ceil(w)` is `j + 1`. */
  function Arrivals(pow2: Pow2, cands: seq<Candidate>, j: nat): seq<Entry>
    decreases |cands|
  {
    if |cands| == 0 then []
    else
      var c := cands[0];
      (if Threshold < c.input && Ceil(c.linkWeight) == j + 1 then [ChildEntry(pow2, c)] else [])
        + Arrivals(pow2, cands[1..], j)
  }

  /** The inner loop fails exactly when some valid child's link weight is not positive. */
  lemma {:induction false} EnqueueChildrenFails(pow2: Pow2, q: TimeQueue, cands: seq<Candidate>)
    ensures EnqueueChildren(pow2, q, cands).Err? <==> exists c :: c in cands && c.linkWeight <= 0.0
    decreases |cands|
  {
    if |cands| > 0 {
      var r := EnqueueChild(pow2, q, cands[0]);
      assert forall c :: c in cands <==> c == cands[0] || c in cands[1..];
      if r.Ok? {
        EnqueueChildrenFails(pow2, r.value, cands[1..]);
      }
    }
  }

  /** One candidate read position by position: at most the family `ceil(w) - 1`
      changes, by the candidate's entry. */
  lemma {:induction false} EnqueueChildGet(pow2: Pow2, q: TimeQueue, c: Candidate, j: nat)
    requires EnqueueChild(pow2, q, c).Ok?
    ensures Get(EnqueueChild(pow2, q, c).value, j) == Get(q, j) + Arrivals(pow2, [c], j)
  {
    var k := StepwiseTransferTime(c.linkWeight).value;
    assert k == Ceil(c.linkWeight);
    assert EnqueueChild(pow2, q, c).value == QueueNodeActivation(pow2, q, k, c.input, c.child);
    assert Arrivals(pow2, [c], j) == if Threshold < c.input && k == j + 1 then [ChildEntry(pow2, c)] else [] by {
      assert [c][1..] == [];
    }
    if Threshold < c.input {
      AddNodeGet(q, k - 1, Attenuated(pow2, c.input, c.child.weight), c.child.name, j);
    }
  }

  /** On success the inner loop appends to every family `j` exactly the arrivals for
      `j`, in candidate order, and to nothing else. */
  lemma {:induction false} EnqueueChildrenGet(pow2: Pow2, q: TimeQueue, cands: seq<Candidate>, j: nat)
    requires EnqueueChildren(pow2, q, cands).Ok?
    ensures Get(EnqueueChildren(pow2, q, cands).value, j) == Get(q, j) + Arrivals(pow2, cands, j)
    decreases |cands|
  {
    if |cands| > 0 {
      var q' := EnqueueChild(pow2, q, cands[0]).value;
      EnqueueChildrenFirst(pow2, q, cands);
      EnqueueChildGet(pow2, q, cands[0], j);
      EnqueueChildrenGet(pow2, q', cands[1..], j);
      ArrivalsFirst(pow2, cands, j);
    }
  }

  /** One turn of the inner loop, when the first candidate's weight is accepted. */
  lemma {:induction false} EnqueueChildrenFirst(pow2: Pow2, q: TimeQueue, cands: seq<Candidate>)
    requires 0 < |cands| && EnqueueChild(pow2, q, cands[0]).Ok?
    ensures EnqueueChildren(pow2, q, cands) == EnqueueChildren(pow2, EnqueueChild(pow2, q, cands[0]).value, cands[1..])
  {
  }

  /** The arrivals of a list split into those of its first candidate and the rest. */
  lemma {:induction false} ArrivalsFirst(pow2: Pow2, cands: seq<Candidate>, j: nat)
    requires 0 < |cands|
    ensures Arrivals(pow2, cands, j) == Arrivals(pow2, [cands[0]], j) + Arrivals(pow2, cands[1..], j)
  {
    assert [cands[0]][1..] == [];
  }

  /** A popped entry fails when its node is missing, its type is not in the schema,
      or one of its valid children sits across a link of nonpositive weight. */
  predicate EntryFails(g: Graph, schema: seq<TypeName>, pow2: Pow2, e: Entry)
    requires WellFormed(g)
  {
    var cands := Expand(g, schema, pow2, e.name, e.strength);
    cands.Err? || exists c :: c in cands.value && c.linkWeight <= 0.0
  }

  /** The loop `for (strength, name) in family` over the deque left after the pop. */
  function ExpandFamily(g: Graph, schema: seq<TypeName>, pow2: Pow2, q: TimeQueue, family: Family): Result<TimeQueue>
    requires WellFormed(g)
    decreases |family|
  {
    if |family| == 0 then Ok(q)
    else
      var e := family[0];
      var cands :- Expand(g, schema, pow2, e.name, e.strength);
      var q' :- EnqueueChildren(pow2, q, cands);
      ExpandFamily(g, schema, pow2, q', family[1..])
  }

  /** The entries a whole family adds to family `j`, entry by entry. */
  function FamilyArrivals(g: Graph, schema: seq<TypeName>, pow2: Pow2, family: Family, j: nat): seq<Entry>
    requires WellFormed(g)
    decreases |family|
  {
    if |family| == 0 then []
    else
      var cands := Expand(g, schema, pow2, family[0].name, family[0].strength);
      (if cands.Ok? then Arrivals(pow2, cands.value, j) else []) + FamilyArrivals(g, schema, pow2, family[1..], j)
  }

  /** Processing a family fails exactly when one of its entries fails. */
  lemma {:induction false} ExpandFamilyFails(g: Graph, schema: seq<TypeName>, pow2: Pow2, q: TimeQueue, family: Family)
    requires WellFormed(g)
    ensures ExpandFamily(g, schema, pow2, q, family).Err? <==> exists e :: e in family && EntryFails(g, schema, pow2, e)
    decreases |family|
  {
    if |family| > 0 {
      var e := family[0];
      var cands := Expand(g, schema, pow2, e.name, e.strength);
      if cands.Err? {
        assert EntryFails(g, schema, pow2, e);
      } else {
        EnqueueChildrenFails(pow2, q, cands.value);
        var q' := EnqueueChildren(pow2, q, cands.value);
        if q'.Err? {
          assert EntryFails(g, schema, pow2, e);
        } else {
          assert !EntryFails(g, schema, pow2, e);
          ExpandFamilyFirst(g, schema, pow2, q, family);
          ExpandFamilyFails(g, schema, pow2, q'.value, family[1..]);
          assert forall x :: x in family <==> x == e || x in family[1..];
        }
      }
    }
  }

  /** One turn of the family loop, when the first entry succeeds. */
  lemma {:induction false} ExpandFamilyFirst(g: Graph, schema: seq<TypeName>, pow2: Pow2, q: TimeQueue, family: Family)
    requires WellFormed(g)
    requires 0 < |family|
    requires Expand(g, schema, pow2, family[0].name, family[0].strength).Ok?
    requires EnqueueChildren(pow2, q, Expand(g, schema, pow2, family[0].name, family[0].strength).value).Ok?
    ensures ExpandFamily(g, schema, pow2, q, family)
         == ExpandFamily(g, schema, pow2, EnqueueChildren(pow2, q, Expand(g, schema, pow2, family[0].name, family[0].strength).value).value, family[1..])
  {
  }

  /** A family that is processed successfully had a successful first entry. */
  lemma {:induction false} ExpandFamilyOkFirst(g: Graph, schema: seq<TypeName>, pow2: Pow2, q: TimeQueue, family: Family)
    requires WellFormed(g)
    requires 0 < |family|
    requires ExpandFamily(g, schema, pow2, q, family).Ok?
    ensures Expand(g, schema, pow2, family[0].name, family[0].strength).Ok?
    ensures EnqueueChildren(pow2, q, Expand(g, schema, pow2, family[0].name, family[0].strength).value).Ok?
  {
  }

  /** On success, processing a family appends to every family `j` exactly the
      arrivals its entries produce for `j`, in processing order. */
  lemma {:induction false} ExpandFamilyGet(g: Graph, schema: seq<TypeName>, pow2: Pow2, q: TimeQueue, family: Family, j: nat)
    requires WellFormed(g)
    requires ExpandFamily(g, schema, pow2, q, family).Ok?
    ensures Get(ExpandFamily(g, schema, pow2, q, family).value, j) == Get(q, j) + FamilyArrivals(g, schema, pow2, family, j)
    decreases |family|
  {
    if |family| > 0 {
      var e := family[0];
      ExpandFamilyOkFirst(g, schema, pow2, q, family);
      var cands := Expand(g, schema, pow2, e.name, e.strength).value;
      var q' := EnqueueChildren(pow2, q, cands).value;
      ExpandFamilyFirst(g, schema, pow2, q, family);
      EnqueueChildrenGet(pow2, q, cands, j);
      ExpandFamilyGet(g, schema, pow2, q', family[1..], j);
      FamilyArrivalsFirst(g, schema, pow2, family, j);
      var fin := ExpandFamily(g, schema, pow2, q', family[1..]).value;
      assert ExpandFamily(g, schema, pow2, q, family).value == fin;
      ConcatAssoc(Get(q, j), Arrivals(pow2, cands, j), FamilyArrivals(g, schema, pow2, family[1..], j));
    }
  }

  lemma {:induction false} ConcatAssoc(a: seq<Entry>, b: seq<Entry>, c: seq<Entry>)
    ensures (a + b) + c == a + (b + c)
  {
  }

  /** The arrivals of a family split into those of its first entry and the rest. */
  lemma {:induction false} FamilyArrivalsFirst(g: Graph, schema: seq<TypeName>, pow2: Pow2, family: Family, j: nat)
    requires WellFormed(g)
    requires 0 < |family|
    requires Expand(g, schema, pow2, family[0].name, family[0].strength).Ok?
    ensures FamilyArrivals(g, schema, pow2, family, j)
         == Arrivals(pow2, Expand(g, schema, pow2, family[0].name, family[0].strength).value, j) + FamilyArrivals(g, schema, pow2, family[1..], j)
  {
  }

  /** A candidate of an entry of the family that passes the gate over a link of
      transfer time `j + 1` is among the family's arrivals for family `j`. */
  lemma {:induction false} ArrivalIn(g: Graph, schema: seq<TypeName>, pow2: Pow2, family: Family, e: Entry, c: Candidate, j: nat)
    requires WellFormed(g)
    requires e in family
    requires Expand(g, schema, pow2, e.name, e.strength).Ok?
    requires c in Expand(g, schema, pow2, e.name, e.strength).value
    requires Threshold < c.input && Ceil(c.linkWeight) == j + 1
    ensures ChildEntry(pow2, c) in FamilyArrivals(g, schema, pow2, family, j)
    decreases |family|
  {
    if family[0] == e {
      CandidateArrives(pow2, Expand(g, schema, pow2, e.name, e.strength).value, c, j);
    } else {
      ArrivalIn(g, schema, pow2, family[1..], e, c, j);
    }
  }

  /** A child that passes the gate over a link of positive weight `w` arrives at
      family `ceil(w) - 1`, so that it is popped `ceil(w)` steps after its parent. */
  lemma {:induction false} ChildArrival(g: Graph, schema: seq<TypeName>, pow2: Pow2, family: Family, e: Entry, c: Candidate)
    requires WellFormed(g)
    requires e in family
    requires Expand(g, schema, pow2, e.name, e.strength).Ok?
    requires c in Expand(g, schema, pow2, e.name, e.strength).value
    requires Threshold < c.input && 0.0 < c.linkWeight
    ensures 1 <= Ceil(c.linkWeight)
    ensures ChildEntry(pow2, c) in FamilyArrivals(g, schema, pow2, family, Ceil(c.linkWeight) - 1)
  {
    ArrivalIn(g, schema, pow2, family, e, c, Ceil(c.linkWeight) - 1);
  }

  /** A candidate that passes the gate over a link of transfer time `j + 1` arrives
      at family `j`. */
  lemma {:induction false} CandidateArrives(pow2: Pow2, cands: seq<Candidate>, c: Candidate, j: nat)
    requires c in cands
    requires Threshold < c.input && Ceil(c.linkWeight) == j + 1
    ensures ChildEntry(pow2, c) in Arrivals(pow2, cands, j)
    decreases |cands|
  {
    if cands[0] != c {
      CandidateArrives(pow2, cands[1..], c, j);
    }
  }

  /** The run's state: the deque, the history of `(current_time, family)` pairs, and
      `current_time`, the time the next popped family is recorded at. */
  datatype State = State(queue: TimeQueue, history: seq<(nat, Family)>, now: nat)

  /** The seeding loop: every start pair goes through the gate with `steps = 1`. */
  function Seed(pow2: Pow2, q: TimeQueue, start: seq<(Node, real)>): TimeQueue
    decreases |start|
  {
    if |start| == 0 then q
    else Seed(pow2, QueueNodeActivation(pow2, q, 1, start[0].1, start[0].0), start[1..])
  }

  /** The seed entries: one per start pair whose strength passes the gate, in start order. */
  function SeedEntries(pow2: Pow2, start: seq<(Node, real)>): (r: Family)
    ensures |r| <= |start|
  {
    if |start| == 0 then []
    else
      var p := start[0];
      (if Threshold < p.1 then [Entry(Attenuated(pow2, p.1, p.0.weight), p.0.name)] else []) + SeedEntries(pow2, start[1..])
  }

  /** Seeding appends the seed entries to the front family and touches no other family. */
  lemma {:induction false} SeedGet(pow2: Pow2, q: TimeQueue, start: seq<(Node, real)>, j: nat)
    ensures Get(Seed(pow2, q, start), j) == Get(q, j) + (if j == 0 then SeedEntries(pow2, start) else [])
    decreases |start|
  {
    if |start| > 0 {
      var p := start[0];
      var q' := QueueNodeActivation(pow2, q, 1, p.1, p.0);
      if Threshold < p.1 {
        AddNodeGet(q, 0, Attenuated(pow2, p.1, p.0.weight), p.0.name, j);
      }
      SeedGet(pow2, q', start[1..], j);
    }
  }

  /** Seeding only ever creates the front family. */
  lemma {:induction false} SeedLength(pow2: Pow2, q: TimeQueue, start: seq<(Node, real)>)
    requires |q| <= 1
    ensures |Seed(pow2, q, start)| <= 1
    ensures |Seed(pow2, q, start)| == 0 <==> |q| == 0 && SeedEntries(pow2, start) == []
    decreases |start|
  {
    if |start| > 0 {
      var p := start[0];
      SeedLength(pow2, QueueNodeActivation(pow2, q, 1, p.1, p.0), start[1..]);
    }
  }

  /** The state after seeding, with `current_time = 0`. */
  function Init(pow2: Pow2, start: seq<(Node, real)>): State {
    State(Seed(pow2, [], start), [], 0)
  }

  /** Seeds land in the front family, the one recorded at time 0; with no seed past
      the gate the deque is empty and the run records nothing. */
  lemma {:induction false} InitQueue(pow2: Pow2, start: seq<(Node, real)>)
    ensures var seeds := SeedEntries(pow2, start);
            Init(pow2, start).queue == if seeds == [] then [] else [seeds]
  {
    var q := Init(pow2, start).queue;
    SeedLength(pow2, [], start);
    SeedGet(pow2, [], start, 0);
    var seeds := SeedEntries(pow2, start);
    assert Get(q, 0) == seeds;
    if q != [] {
      assert |q| == 1;
      assert q[0] == seeds;
      assert seeds != [];
      assert q == [q[0]];
    }
  }

  /** One iteration of `while tq:`: the front family is popped and recorded with the
      current time, the time advances by exactly one (also for an empty family), and
      the family's entries are expanded in order into the remaining deque. */
  function Step(g: Graph, schema: seq<TypeName>, pow2: Pow2, st: State): (r: Result<State>)
    requires WellFormed(g)
    requires 0 < |st.queue|
    ensures r.Ok? ==> r.value.history == st.history + [(st.now, st.queue[0])] && r.value.now == st.now + 1
  {
    var (family, rest) := PopFamily(st.queue).value;
    var q :- ExpandFamily(g, schema, pow2, rest, family);
    Ok(State(q, st.history + [(st.now, family)], st.now + 1))
  }

  /** On success the family now at position `j` is the one that was behind it at
      `j + 1`, followed by the popped family's arrivals for `j`. Nothing is added to
      the popped family. */
  lemma {:induction false} StepQueue(g: Graph, schema: seq<TypeName>, pow2: Pow2, st: State, j: nat)
    requires WellFormed(g)
    requires 0 < |st.queue|
    requires Step(g, schema, pow2, st).Ok?
    ensures Get(Step(g, schema, pow2, st).value.queue, j) == Get(st.queue, j + 1) + FamilyArrivals(g, schema, pow2, st.queue[0], j)
  {
    ExpandFamilyGet(g, schema, pow2, st.queue[1..], st.queue[0], j);
  }

  /** A step fails exactly when an entry of the popped family fails. */
  lemma {:induction false} StepFails(g: Graph, schema: seq<TypeName>, pow2: Pow2, st: State)
    requires WellFormed(g)
    requires 0 < |st.queue|
    ensures Step(g, schema, pow2, st).Err? <==> exists e :: e in st.queue[0] && EntryFails(g, schema, pow2, e)
  {
    ExpandFamilyFails(g, schema, pow2, st.queue[1..], st.queue[0]);
  }

  /** Popping an empty (padding) family still records it and advances the time. */
  lemma {:induction false} EmptyFamilyStep(g: Graph, schema: seq<TypeName>, pow2: Pow2, st: State)
    requires WellFormed(g)
    requires 0 < |st.queue| && st.queue[0] == []
    ensures Step(g, schema, pow2, st) == Ok(State(st.queue[1..], st.history + [(st.now, [])], st.now + 1))
  {
  }

  /** Entry `k` of the history was recorded at time `k`, and `current_time` is the
      number of families popped so far. */
  predicate Clocked(st: State) {
    && st.now == |st.history|
    && forall k :: 0 <= k < |st.history| ==> st.history[k].0 == k
  }

  /** A step keeps history times equal to positions. */
  lemma {:induction false} StepClocked(g: Graph, schema: seq<TypeName>, pow2: Pow2, st: State)
    requires WellFormed(g)
    requires 0 < |st.queue|
    requires Step(g, schema, pow2, st).Ok?
    ensures Clocked(st) ==> Clocked(Step(g, schema, pow2, st).value)
  {
  }

  /** At most `fuel` iterations of the loop, stopping when the deque empties. */
  function RunSteps(g: Graph, schema: seq<TypeName>, pow2: Pow2, st: State, fuel: nat): Result<State>
    requires WellFormed(g)
    decreases fuel, 1
  {
    if fuel == 0 || |st.queue| == 0 then Ok(st)
    else StepThenRun(g, schema, pow2, st, fuel)
  }

  /** One iteration of the loop on a nonempty deque, then the remaining ones; an
      error aborts the run. */
  function StepThenRun(g: Graph, schema: seq<TypeName>, pow2: Pow2, st: State, fuel: nat): Result<State>
    requires WellFormed(g)
    requires 0 < fuel && 0 < |st.queue|
    decreases fuel, 0
  {
    var next :- Step(g, schema, pow2, st);
    RunSteps(g, schema, pow2, next, fuel - 1)
  }

  /** A run only appends to the history, and keeps history times equal to positions. */
  lemma {:induction false} RunStepsExtends(g: Graph, schema: seq<TypeName>, pow2: Pow2, st: State, fuel: nat)
    requires WellFormed(g)
    ensures var r := RunSteps(g, schema, pow2, st, fuel);
            r.Ok? ==> st.history <= r.value.history && (Clocked(st) ==> Clocked(r.value))
    decreases fuel
  {
    if 0 < fuel && 0 < |st.queue| {
      RunStepsUnfold(g, schema, pow2, st, fuel);
      var next := Step(g, schema, pow2, st);
      if next.Ok? {
        StepClocked(g, schema, pow2, st);
        RunStepsExtends(g, schema, pow2, next.value, fuel - 1);
      }
    }
  }

  /** One loop iteration in terms of RunSteps. */
  lemma {:induction false} RunStepsUnfold(g: Graph, schema: seq<TypeName>, pow2: Pow2, st: State, fuel: nat)
    requires WellFormed(g)
    requires 0 < fuel && 0 < |st.queue|
    ensures Step(g, schema, pow2, st).Err? ==>
              RunSteps(g, schema, pow2, st, fuel) == Err(Step(g, schema, pow2, st).error)
    ensures Step(g, schema, pow2, st).Ok? ==>
              RunSteps(g, schema, pow2, st, fuel) == RunSteps(g, schema, pow2, Step(g, schema, pow2, st).value, fuel - 1)
  {
    assert RunSteps(g, schema, pow2, st, fuel) == StepThenRun(g, schema, pow2, st, fuel);
  }

  /** Whatever sits in family `j` now is recorded `j` steps later, at time `now + j`,
      followed by whatever joins that family in between. */
  lemma {:induction false} SlotRecordedLater(g: Graph, schema: seq<TypeName>, pow2: Pow2, st: State, fuel: nat, fin: State, j: nat)
    requires WellFormed(g)
    requires RunSteps(g, schema, pow2, st, fuel) == Ok(fin)
    requires |st.history| + j < |fin.history|
    ensures fin.history[|st.history| + j].0 == st.now + j
    ensures Get(st.queue, j) <= fin.history[|st.history| + j].1
    decreases j
  {
    if j == 0 {
      var next := FirstStep(g, schema, pow2, st, fuel, fin);
    } else {
      var next := StepOfRunKeeps(g, schema, pow2, st, fuel, fin, j - 1);
      SlotRecordedLater(g, schema, pow2, next, fuel - 1, fin, j - 1);
    }
  }

  /** A run that records anything took a first step, and the rest of the run goes on
      from the state after it. */
  lemma {:induction false} FirstStep(g: Graph, schema: seq<TypeName>, pow2: Pow2, st: State, fuel: nat, fin: State) returns (next: State)
    requires WellFormed(g)
    requires RunSteps(g, schema, pow2, st, fuel) == Ok(fin)
    requires |st.history| < |fin.history|
    ensures 0 < fuel && 0 < |st.queue|
    ensures Step(g, schema, pow2, st) == Ok(next)
    ensures RunSteps(g, schema, pow2, next, fuel - 1) == Ok(fin)
    ensures fin.history[|st.history|] == (st.now, st.queue[0])
    ensures |next.history| == |st.history| + 1 && next.now == st.now + 1
  {
    RunStepsUnfold(g, schema, pow2, st, fuel);
    next := Step(g, schema, pow2, st).value;
    RunStepsExtends(g, schema, pow2, next, fuel - 1);
  }


  /** The first step of a run that records anything, seen from family `j`: the run
      goes on from a state whose family `j` is the old family `j + 1` followed by the
      popped family's arrivals for `j`. */
  lemma {:induction false} StepOfRun(g: Graph, schema: seq<TypeName>, pow2: Pow2, st: State, fuel: nat, fin: State, j: nat) returns (next: State)
    requires WellFormed(g)
    requires RunSteps(g, schema, pow2, st, fuel) == Ok(fin)
    requires |st.history| < |fin.history|
    ensures 0 < fuel && 0 < |st.queue|
    ensures RunSteps(g, schema, pow2, next, fuel - 1) == Ok(fin)
    ensures fin.history[|st.history|] == (st.now, st.queue[0])
    ensures |next.history| == |st.history| + 1 && next.now == st.now + 1
    ensures Get(next.queue, j) == Get(st.queue, j + 1) + FamilyArrivals(g, schema, pow2, st.queue[0], j)
  {
    next := FirstStep(g, schema, pow2, st, fuel, fin);
    StepQueue(g, schema, pow2, st, j);
  }

  /** The first step of a run that records anything only appends to family `j + 1`
      as it becomes family `j`. */
  lemma {:induction false} StepOfRunKeeps(g: Graph, schema: seq<TypeName>, pow2: Pow2, st: State, fuel: nat, fin: State, j: nat) returns (next: State)
    requires WellFormed(g)
    requires RunSteps(g, schema, pow2, st, fuel) == Ok(fin)
    requires |st.history| < |fin.history|
    ensures 0 < fuel
    ensures RunSteps(g, schema, pow2, next, fuel - 1) == Ok(fin)
    ensures |next.history| == |st.history| + 1 && next.now == st.now + 1
    ensures Get(st.queue, j + 1) <= Get(next.queue, j)
  {
    next := StepOfRun(g, schema, pow2, st, fuel, fin, j);
  }

  /** After a step, every arrival of the popped family for family `j` sits in family `j`. */
  lemma {:induction false} StepPlacesArrival(g: Graph, schema: seq<TypeName>, pow2: Pow2, st: State, next: State, j: nat, x: Entry)
    requires WellFormed(g)
    requires 0 < |st.queue|
    requires Step(g, schema, pow2, st) == Ok(next)
    requires x in FamilyArrivals(g, schema, pow2, st.queue[0], j)
    ensures x in Get(next.queue, j)
  {
    InConcat(x, Get(st.queue, j + 1), FamilyArrivals(g, schema, pow2, st.queue[0], j));
    StepQueue(g, schema, pow2, st, j);
  }

  lemma {:induction false} InConcat(x: Entry, a: seq<Entry>, b: seq<Entry>)
    requires x in b
    ensures x in a + b
  {
  }

  /** An arrival for family `j` of the family recorded at time `t` (history position
      `p`) is recorded in the family at history position `i = p + 1 + j`, of time
      `t + 1 + j`. */
  lemma {:induction false} ArrivalRecordedLater(g: Graph, schema: seq<TypeName>, pow2: Pow2, st: State, fuel: nat, fin: State, j: nat, i: nat, x: Entry)
    requires WellFormed(g)
    requires RunSteps(g, schema, pow2, st, fuel) == Ok(fin)
    requires i == |st.history| + 1 + j && i < |fin.history|
    requires 0 < |st.queue| && x in FamilyArrivals(g, schema, pow2, st.queue[0], j)
    ensures x in fin.history[i].1
  {
    var next := ArrivalStep(g, schema, pow2, st, fuel, fin, j, x);
    SlotMemberRecordedLater(g, schema, pow2, next, fuel - 1, fin, j, i, x);
  }

  /** A child that passes the gate over a link of transfer time `k`, from an entry of
      the family recorded at time `now`, is in the family recorded at time `now + k`:
      given `k` more iterations of fuel, the run does reach that family. */
  lemma ChildRecordedAfter(g: Graph, schema: seq<TypeName>, pow2: Pow2, st: State, fuel: nat, fin: State, e: Entry, c: Candidate, k: nat, i: nat)
    requires WellFormed(g) && Clocked(st)
    requires RunSteps(g, schema, pow2, st, fuel) == Ok(fin)
    requires 0 < |st.queue| && e in st.queue[0]
    requires Expand(g, schema, pow2, e.name, e.strength).Ok?
    requires c in Expand(g, schema, pow2, e.name, e.strength).value
    requires Threshold < c.input && 0.0 < c.linkWeight
    requires k == Ceil(c.linkWeight) && i == |st.history| + k && k < fuel
    ensures i < |fin.history|
    ensures fin.history[i].0 == st.now + k
    ensures ChildEntry(pow2, c) in fin.history[i].1
  {
    ChildArrival(g, schema, pow2, st.queue[0], e, c);
    ChildRecordedIn(g, schema, pow2, st, fuel, fin, e, c, k - 1, i);
    RunRecordedAt(g, schema, pow2, st, fuel, fin, i);
  }

  /** A successful run cannot stop while an entry is still pending: an entry in
      family `j`, with more than `j` iterations of fuel, keeps the loop going until
      that family is recorded. */
  lemma {:induction false} RunReaches(g: Graph, schema: seq<TypeName>, pow2: Pow2, st: State, fuel: nat, fin: State, j: nat, x: Entry)
    requires WellFormed(g)
    requires RunSteps(g, schema, pow2, st, fuel) == Ok(fin)
    requires x in Get(st.queue, j) && j < fuel
    ensures |st.history| + j < |fin.history|
    decreases j
  {
    assert 0 < |st.queue|;
    RunStepsUnfold(g, schema, pow2, st, fuel);
    var next := Step(g, schema, pow2, st).value;
    RunStepsExtends(g, schema, pow2, next, fuel - 1);
    if j > 0 {
      StepQueue(g, schema, pow2, st, j - 1);
      RunReaches(g, schema, pow2, next, fuel - 1, fin, j - 1, x);
    }
  }

  /** An entry pending in family `j`, with more than `j` iterations of fuel, is in the
      family the run records `j` steps later. */
  lemma SlotMemberReached(g: Graph, schema: seq<TypeName>, pow2: Pow2, st: State, fuel: nat, fin: State, j: nat, x: Entry)
    requires WellFormed(g)
    requires RunSteps(g, schema, pow2, st, fuel) == Ok(fin)
    requires x in Get(st.queue, j) && j < fuel
    ensures |st.history| + j < |fin.history|
    ensures x in fin.history[|st.history| + j].1
  {
    RunReaches(g, schema, pow2, st, fuel, fin, j, x);
    SlotMemberRecordedLater(g, schema, pow2, st, fuel, fin, j, |st.history| + j, x);
  }

  /** An arrival for family `j` of the popped family, with more than `j + 1`
      iterations of fuel, is recorded: the run reaches position `|history| + 1 + j`. */
  lemma ArrivalReached(g: Graph, schema: seq<TypeName>, pow2: Pow2, st: State, fuel: nat, fin: State, j: nat, x: Entry)
    requires WellFormed(g)
    requires RunSteps(g, schema, pow2, st, fuel) == Ok(fin)
    requires 0 < |st.queue| && x in FamilyArrivals(g, schema, pow2, st.queue[0], j)
    requires j + 1 < fuel
    ensures |st.history| + 1 + j < |fin.history|
  {
    RunStepsUnfold(g, schema, pow2, st, fuel);
    var next := Step(g, schema, pow2, st).value;
    StepPlacesArrival(g, schema, pow2, st, next, j, x);
    RunReaches(g, schema, pow2, next, fuel - 1, fin, j, x);
  }

  /** A child that passes the gate over a link of transfer time `j + 1`, from an entry
      of the family at the front of the deque, is in the family recorded `j + 1` steps
      on, and with enough fuel the run records that family. */
  lemma ChildRecordedIn(g: Graph, schema: seq<TypeName>, pow2: Pow2, st: State, fuel: nat, fin: State, e: Entry, c: Candidate, j: nat, i: nat)
    requires WellFormed(g)
    requires RunSteps(g, schema, pow2, st, fuel) == Ok(fin)
    requires 0 < |st.queue| && e in st.queue[0]
    requires Expand(g, schema, pow2, e.name, e.strength).Ok?
    requires c in Expand(g, schema, pow2, e.name, e.strength).value
    requires Threshold < c.input && Ceil(c.linkWeight) == j + 1
    requires i == |st.history| + 1 + j && j + 1 < fuel
    ensures i < |fin.history|
    ensures ChildEntry(pow2, c) in fin.history[i].1
  {
    ArrivalIn(g, schema, pow2, st.queue[0], e, c, j);
    ArrivalReached(g, schema, pow2, st, fuel, fin, j, ChildEntry(pow2, c));
    ArrivalRecordedLater(g, schema, pow2, st, fuel, fin, j, i, ChildEntry(pow2, c));
  }

  /** From a clocked state, history entry `i` of a run is recorded at time `i`. */
  lemma RunRecordedAt(g: Graph, schema: seq<TypeName>, pow2: Pow2, st: State, fuel: nat, fin: State, i: nat)
    requires WellFormed(g) && Clocked(st)
    requires RunSteps(g, schema, pow2, st, fuel) == Ok(fin)
    requires i < |fin.history|
    ensures fin.history[i].0 == i
  {
    RunStepsExtends(g, schema, pow2, st, fuel);
  }

  /** The first step of a run places an arrival of the popped family for family `j`
      in family `j` of the state the run goes on from. */
  lemma {:induction false} ArrivalStep(g: Graph, schema: seq<TypeName>, pow2: Pow2, st: State, fuel: nat, fin: State, j: nat, x: Entry) returns (next: State)
    requires WellFormed(g)
    requires RunSteps(g, schema, pow2, st, fuel) == Ok(fin)
    requires |st.history| < |fin.history|
    requires 0 < |st.queue| && x in FamilyArrivals(g, schema, pow2, st.queue[0], j)
    ensures 0 < fuel
    ensures RunSteps(g, schema, pow2, next, fuel - 1) == Ok(fin)
    ensures |next.history| == |st.history| + 1 && next.now == st.now + 1
    ensures x in Get(next.queue, j)
  {
    next := StepOfRun(g, schema, pow2, st, fuel, fin, j);
    InConcat(x, Get(st.queue, j + 1), FamilyArrivals(g, schema, pow2, st.queue[0], j));
  }

  /** An entry now in family `j` is in the family recorded `j` steps later, at history
      position `i`. */
  lemma {:induction false} SlotMemberRecordedLater(g: Graph, schema: seq<TypeName>, pow2: Pow2, st: State, fuel: nat, fin: State, j: nat, i: nat, x: Entry)
    requires WellFormed(g)
    requires RunSteps(g, schema, pow2, st, fuel) == Ok(fin)
    requires i == |st.history| + j && i < |fin.history|
    requires x in Get(st.queue, j)
    ensures x in fin.history[i].1
  {
    SlotRecordedLater(g, schema, pow2, st, fuel, fin, j);
    InPrefix(x, Get(st.queue, j), fin.history[i].1);
  }

  lemma {:induction false} InPrefix(x: Entry, a: seq<Entry>, b: seq<Entry>)
    requires x in a && a <= b
    ensures x in b
  {
    var n :| 0 <= n < |a| && a[n] == x;
    assert b[n] == x;
  }

  /** `algo`: seed, then pop and expand one family per iteration while the deque is
      nonempty, for at most `fuel` iterations. History entry `k` carries time `k`,
      and the first one is the family of seeds. */
  method Algo(g: Graph, start: seq<(Node, real)>, schema: seq<TypeName>, pow2: Pow2, fuel: nat)
    returns (r: Result<State>)
    requires WellFormed(g)
    ensures r == RunSteps(g, schema, pow2, Init(pow2, start), fuel)
    ensures r.Ok? ==> |r.value.history| <= fuel && r.value.now == |r.value.history|
    ensures r.Ok? ==> forall k :: 0 <= k < |r.value.history| ==> r.value.history[k].0 == k
    ensures r.Ok? && |r.value.history| < fuel ==> r.value.queue == []
    ensures r.Ok? && 0 < fuel && SeedEntries(pow2, start) != [] ==>
              0 < |r.value.history| && r.value.history[0] == (0, SeedEntries(pow2, start))
  {
    var st := Init(pow2, start);
    InitQueue(pow2, start);
    ghost var total := RunSteps(g, schema, pow2, st, fuel);
    var left: nat := fuel;
    while 0 < left && 0 < |st.queue|
      invariant left <= fuel
      invariant |st.history| == fuel - left
      invariant Clocked(st)
      invariant fuel - left == 0 ==> st == Init(pow2, start)
      invariant total == RunSteps(g, schema, pow2, st, left)
      invariant 0 < fuel - left && SeedEntries(pow2, start) != [] ==> st.history[0] == (0, SeedEntries(pow2, start))
      decreases left
    {
      var next := Step(g, schema, pow2, st);
      RunStepsUnfold(g, schema, pow2, st, left);
      if next.Err? {
        return Err(next.error);
      }
      StepClocked(g, schema, pow2, st);
      st := next.value;
      left := left - 1;
    }
    return Ok(st);
  }

  /** A step whose family expands into `q` leaves `q` as the deque. */
  lemma StepTo(g: Graph, schema: seq<TypeName>, pow2: Pow2, st: State, q: TimeQueue)
    requires WellFormed(g) && 0 < |st.queue|
    requires ExpandFamily(g, schema, pow2, st.queue[1..], st.queue[0]) == Ok(q)
    ensures Step(g, schema, pow2, st) == Ok(State(q, st.history + [(st.now, st.queue[0])], st.now + 1))
  {
    assert PopFamily(st.queue) == Some((st.queue[0], st.queue[1..]));
  }

  /** A family of entries without valid children leaves the deque as it was. */
  lemma {:induction false} ExpandLeaves(g: Graph, schema: seq<TypeName>, pow2: Pow2, q: TimeQueue, family: Family)
    requires WellFormed(g)
    requires forall e :: e in family ==> Expand(g, schema, pow2, e.name, e.strength) == Ok([])
    ensures ExpandFamily(g, schema, pow2, q, family) == Ok(q)
    decreases |family|
  {
    if |family| > 0 {
      assert family[0] in family;
      assert EnqueueChildren(pow2, q, []) == Ok(q);
      assert forall e :: e in family[1..] ==> e in family;
      ExpandLeaves(g, schema, pow2, q, family[1..]);
    }
  }

  /** The last step of a run: a lone family of leaves is recorded and the deque empties. */
  lemma LastStep(g: Graph, schema: seq<TypeName>, pow2: Pow2, st: State, family: Family, fuel: nat)
    requires WellFormed(g) && 0 < fuel
    requires st.queue == [family]
    requires forall e :: e in family ==> Expand(g, schema, pow2, e.name, e.strength) == Ok([])
    ensures RunSteps(g, schema, pow2, st, fuel) == Ok(State([], st.history + [(st.now, family)], st.now + 1))
  {
    ExpandLeaves(g, schema, pow2, [], family);
    assert st.queue[1..] == [];
    StepTo(g, schema, pow2, st, []);
    RunStepsUnfold(g, schema, pow2, st, fuel);
  }

  /** A child one step away (link weight in (0, 1]) that passes the gate joins the
      front family of the deque, at its end. */
  lemma NextStepChild(pow2: Pow2, q: TimeQueue, c: Candidate)
    requires |q| <= 1
    requires 0.0 < c.linkWeight <= 1.0 && Threshold < c.input
    ensures EnqueueChild(pow2, q, c) == Ok([Get(q, 0) + [ChildEntry(pow2, c)]])
  {
    assert Ceil(c.linkWeight) == 1;
    var r := AddNode(q, 0, Attenuated(pow2, c.input, c.child.weight), c.child.name);
    assert |r| == 1 && r[0] == Get(q, 0) + [ChildEntry(pow2, c)];
    assert r == [r[0]];
    assert StepwiseTransferTime(c.linkWeight) == Ok(1);
    assert QueueNodeActivation(pow2, q, 1, c.input, c.child) == r;
  }

  /** A lone valid child one step away that passes the gate makes up the next family. */
  lemma LoneNearChild(pow2: Pow2, c: Candidate)
    requires 0.0 < c.linkWeight <= 1.0 && Threshold < c.input
    ensures EnqueueChildren(pow2, [], [c]) == Ok([[ChildEntry(pow2, c)]])
  {
    NextStepChild(pow2, [], c);
    assert Get([], 0) + [ChildEntry(pow2, c)] == [ChildEntry(pow2, c)];
    assert [c][1..] == [];
  }

  /** Seeding one node with a strength that passes the gate. */
  lemma InitOne(pow2: Pow2, n: Node, strength: real)
    requires Threshold < strength
    ensures Init(pow2, [(n, strength)]) == State([[Entry(Attenuated(pow2, strength, n.weight), n.name)]], [], 0)
  {
    assert [(n, strength)][1..] == [];
    assert SeedEntries(pow2, [(n, strength)]) == [Entry(Attenuated(pow2, strength, n.weight), n.name)];
    InitQueue(pow2, [(n, strength)]);
  }

  /** A node without links, seeded alone with a strength that passes the gate, is
      recorded once, at time 0, with its attenuated strength, and the run ends there. */
  lemma IsolatedNodeRun(pow2: Pow2, n: Node, strength: real, schema: seq<TypeName>, fuel: nat)
    requires Threshold < strength && n.kind in schema && 0 < fuel
    ensures var g := Graph(map[n.name := n], map[n.name := []]);
            var e := Entry(Attenuated(pow2, strength, n.weight), n.name);
            RunSteps(g, schema, pow2, Init(pow2, [(n, strength)]), fuel) == Ok(State([], [(0, [e])], 1))
  {
    var g := Graph(map[n.name := n], map[n.name := []]);
    var e := Entry(Attenuated(pow2, strength, n.weight), n.name);
    InitOne(pow2, n, strength);
    assert Expand(g, schema, pow2, n.name, e.strength) == Ok([]);
    LastStep(g, schema, pow2, State([[e]], [], 0), [e], fuel);
    assert [] + [(0, [e])] == [(0, [e])];
  }

  /** The singleton test (one node of weight 0, seeded with 1): one family at time 0
      holding the node with strength 1, and nothing after it. */
  lemma SingletonRun(pow2: Pow2)
    ensures var v := Node("value_prop", "value_prop", 0.0);
            var g := Graph(map["value_prop" := v], map["value_prop" := []]);
            RunSteps(g, ["value_prop"], pow2, Init(pow2, [(v, 1.0)]), 1)
              == Ok(State([], [(0, [Entry(1.0, "value_prop")])], 1))
  {
    assert Attenuation(pow2, 0.0) == 1.0;
    IsolatedNodeRun(pow2, Node("value_prop", "value_prop", 0.0), 1.0, ["value_prop"], 1);
  }

  /** The graph of the two-node test. */
  function TwoNodeGraph(): (g: Graph)
    ensures WellFormed(g)
  {
    Graph(map["b" := Node("b", "b", 0.0), "c" := Node("c", "c", 0.0)],
          map["b" := [Link("c", 0.2)], "c" := []])
  }

  /** The candidate the two-node test's b produces for c. */
  lemma TwoNodeExpand(pow2: Pow2)
    ensures Expand(TwoNodeGraph(), ["b", "c"], pow2, "b", 1.0)
              == Ok([Candidate(Node("c", "c", 0.0), 0.2, ChildInput(pow2, 1.0, 0.2))])
  {
    var g := TwoNodeGraph();
    assert ValidTypesFollowing("b", ["b", "c"]) == Ok({"c"});
    assert [Link("c", 0.2)][1..] == [];
    assert g.nodes["c"] == Node("c", "c", 0.0) && g.adj["b"] == [Link("c", 0.2)];
    assert FilterLinks(g, pow2, {"c"}, [Link("c", 0.2)], 1.0)
             == [CandidateOf(g, pow2, Link("c", 0.2), 1.0)] + FilterLinks(g, pow2, {"c"}, [], 1.0);
    assert FilterLinks(g, pow2, {"c"}, [Link("c", 0.2)], 1.0)
             == [Candidate(Node("c", "c", 0.0), 0.2, ChildInput(pow2, 1.0, 0.2))];
  }

  /** The strength reaching c in the two-node test: `link_strength(0.2)` lies between
      `link_strength(1) = 1/2` and 1, so c receives between 0.4 and 0.8. */
  lemma TwoNodeStrength(pow2: Pow2)
    ensures 0.4 <= ChildInput(pow2, 1.0, 0.2) <= 0.8
  {
    AttenuationDecreases(pow2, 0.2, 1.0);
    AttenuationAtNatural(pow2, 1);
  }

  /** The first step of the two-node test: b is recorded at time 0 and c, one step
      away, makes up the next family. */
  lemma TwoNodeFirstStep(pow2: Pow2)
    ensures var x := ChildInput(pow2, 1.0, 0.2);
            Step(TwoNodeGraph(), ["b", "c"], pow2, State([[Entry(1.0, "b")]], [], 0))
              == Ok(State([[Entry(x, "c")]], [(0, [Entry(1.0, "b")])], 1))
  {
    var g, schema := TwoNodeGraph(), ["b", "c"];
    var x := ChildInput(pow2, 1.0, 0.2);
    TwoNodeStrength(pow2);
    var cand := Candidate(Node("c", "c", 0.0), 0.2, x);
    var eb, ec := Entry(1.0, "b"), Entry(x, "c");
    TwoNodeExpand(pow2);
    LoneNearChild(pow2, cand);
    assert ChildEntry(pow2, cand) == ec by {
      assert Attenuation(pow2, 0.0) == 1.0;
    }
    assert ExpandFamily(g, schema, pow2, [], [eb]) == Ok([[ec]]) by {
      assert [eb][1..] == [];
    }
    StepTo(g, schema, pow2, State([[eb]], [], 0), [[ec]]);
    assert [] + [(0, [eb])] == [(0, [eb])];
  }

  /** The leaf c of the two-node test has no valid children. */
  lemma TwoNodeLeaf(pow2: Pow2, x: real)
    ensures Expand(TwoNodeGraph(), ["b", "c"], pow2, "c", x) == Ok([])
  {
    assert ValidTypesFollowing("c", ["b", "c"]) == Ok({"b"});
  }

  /** The second and last step of the two-node test. */
  lemma TwoNodeLastStep(pow2: Pow2, x: real)
    ensures RunSteps(TwoNodeGraph(), ["b", "c"], pow2, State([[Entry(x, "c")]], [(0, [Entry(1.0, "b")])], 1), 1)
              == Ok(State([], [(0, [Entry(1.0, "b")]), (1, [Entry(x, "c")])], 2))
  {
    var eb, ec := Entry(1.0, "b"), Entry(x, "c");
    TwoNodeLeaf(pow2, x);
    LastStep(TwoNodeGraph(), ["b", "c"], pow2, State([[ec]], [(0, [eb])], 1), [ec], 1);
    assert [(0, [eb])] + [(1, [ec])] == [(0, [eb]), (1, [ec])];
  }

  /** The two-node test (b -> c over a link of weight 0.2, both of weight 0, seeded
      with b at 1): `ceil(0.2) = 1`, so c forms the family of time 1 with strength
      `1 * link_strength(0.2) * 0.8`, which lies between 0.4 and 0.8. */
  lemma TwoNodeRun(pow2: Pow2)
    ensures var x := ChildInput(pow2, 1.0, 0.2);
            && RunSteps(TwoNodeGraph(), ["b", "c"], pow2, Init(pow2, [(Node("b", "b", 0.0), 1.0)]), 2)
                 == Ok(State([], [(0, [Entry(1.0, "b")]), (1, [Entry(x, "c")])], 2))
            && 0.4 <= x <= 0.8
  {
    var g, schema := TwoNodeGraph(), ["b", "c"];
    var x := ChildInput(pow2, 1.0, 0.2);
    TwoNodeStrength(pow2);
    var eb, ec := Entry(1.0, "b"), Entry(x, "c");
    InitOne(pow2, Node("b", "b", 0.0), 1.0);
    var st0 := State([[eb]], [], 0);
    TwoNodeFirstStep(pow2);
    RunStepsUnfold(g, schema, pow2, st0, 2);
    TwoNodeLastStep(pow2, x);
  }
}

=== FILE: graph.dfy ===
/** The read-only typed, weighted directed graph the engines walk over.
    It has the shape of a networkx `DiGraph`: a node table keyed by name and,
    per node, its ordered list of outgoing links with their weights. */
module GraphModel {

  type Name = string
  type TypeName = string

  /** A node record: its name, its type (a schema symbol) and its weight. */
  datatype Node = Node(name: Name, kind: TypeName, weight: real)

  /** An outgoing edge to `target` carrying the edge weight. */
  datatype Link = Link(target: Name, weight: real)

  datatype Graph = Graph(nodes: map<Name, Node>, adj: map<Name, seq<Link>>)

  /** An assumption on the input graph, not a guarantee of the graph library:
      every node has a successor list, every successor is a node, and a node
      record's `name` attribute is the key it is stored under. The engines look
      nodes up by that attribute, so a graph that breaks it is outside the model. */
  predicate WellFormed(g: Graph) {
    && (forall n :: n in g.nodes ==> g.nodes[n].name == n && n in g.adj)
    && (forall n, i :: n in g.adj && 0 <= i < |g.adj[n]| ==> g.adj[n][i].target in g.nodes)
  }

  /** Every edge weight is nonnegative (the continuous engine's monotone-time hypothesis). */
  predicate NonNegativeLinks(g: Graph) {
    forall n, i :: n in g.adj && 0 <= i < |g.adj[n]| ==> 0.0 <= g.adj[n][i].weight
  }
}

=== FILE: one_by_one.dfy ===
/** The continuous ("one-by-one") engine: pops one event at a time in
    (time, strength, name) order, records it, and schedules the schema-valid
    children at `current_time + link_weight`. */
module OneByOne {
  import opened Results
  import opened GraphModel
  import opened ActivationMath
  import opened EventOrder
  import opened ContinuousQueue
  import opened Propagation
  import opened SchemaAdjacency

  /** The run's state: the pending queue, the activation history so far, and
      `current_time`, the time of the last popped event. */
  datatype State = State(queue: TimeQueue, history: seq<Event>, now: real)

  /** `queue_node_activation`: the threshold gate. The INCOMING strength is
      compared with THRESHOLD; only then is the node's own attenuation applied. */
  function QueueNodeActivation(pow2: Pow2, q: TimeQueue, time: real, input: real, node: Node): (r: TimeQueue)
    ensures input <= Threshold ==> r == q
    ensures Threshold < input ==>
              multiset(r.pending) == multiset(q.pending) + multiset{Event(time, Attenuated(pow2, input, node.weight), node.name)}
  {
    if input > Threshold then AddNode(q, time, Attenuated(pow2, input, node.weight), node.name)
    else q
  }

  /** Past the gate the node is added with its attenuated strength. */
  lemma GateOpen(pow2: Pow2, q: TimeQueue, time: real, input: real, node: Node)
    requires Threshold < input
    ensures QueueNodeActivation(pow2, q, time, input, node) == AddNode(q, time, Attenuated(pow2, input, node.weight), node.name)
  {
  }

  /** The event a candidate gives rise to when its parent was popped at `now`. */
  function ChildEvent(pow2: Pow2, now: real, c: Candidate): Event {
    Event(now + c.linkWeight, Attenuated(pow2, c.input, c.child.weight), c.child.name)
  }

  /** The events scheduled for the candidates of a parent popped at `now`:
      one per candidate whose incoming strength passes the threshold, in
      candidate order. */
  function Spawned(pow2: Pow2, now: real, cands: seq<Candidate>): (r: seq<Event>)
    ensures |r| <= |cands|
  {
    if |cands| == 0 then []
    else
      var rest := Spawned(pow2, now, cands[1..]);
      if cands[0].input > Threshold then [ChildEvent(pow2, now, cands[0])] + rest else rest
  }

  /** An event is spawned exactly when some candidate passing the gate gives rise to it. */
  lemma {:induction false} SpawnedMembers(pow2: Pow2, now: real, cands: seq<Candidate>, e: Event)
    ensures e in Spawned(pow2, now, cands) <==>
              exists c :: c in cands && Threshold < c.input && e == ChildEvent(pow2, now, c)
    decreases |cands|
  {
    if |cands| > 0 {
      SpawnedMembers(pow2, now, cands[1..], e);
      assert forall c :: c in cands <==> c == cands[0] || c in cands[1..];
    }
  }

  /** The loop `for child in valid_children: queue_node_activation(...)`. */
  function EnqueueChildren(pow2: Pow2, q: TimeQueue, now: real, cands: seq<Candidate>): TimeQueue
    decreases |cands|
  {
    if |cands| == 0 then q
    else
      var c := cands[0];
      EnqueueChildren(pow2, QueueNodeActivation(pow2, q, now + c.linkWeight, c.input, c.child), now, cands[1..])
  }

  /** Enqueueing the children adds exactly the spawned events to the queue. */
  lemma {:induction false} EnqueueChildrenContents(pow2: Pow2, q: TimeQueue, now: real, cands: seq<Candidate>)
    ensures multiset(EnqueueChildren(pow2, q, now, cands).pending) == multiset(q.pending) + multiset(Spawned(pow2, now, cands))
    decreases |cands|
  {
    if |cands| > 0 {
      var c := cands[0];
      var head := if c.input > Threshold then [ChildEvent(pow2, now, c)] else [];
      var q' := QueueNodeActivation(pow2, q, now + c.linkWeight, c.input, c.child);
      assert Spawned(pow2, now, cands) == head + Spawned(pow2, now, cands[1..]);
      if c.input > Threshold {
        assert multiset(head) == multiset{ChildEvent(pow2, now, c)};
      }
      assert multiset(q'.pending) == multiset(q.pending) + multiset(head);
      EnqueueChildrenContents(pow2, q', now, cands[1..]);
      EnqueueChildrenFirst(pow2, q, now, cands);
    }
  }

  /** One turn of the enqueueing loop. */
  lemma EnqueueChildrenFirst(pow2: Pow2, q: TimeQueue, now: real, cands: seq<Candidate>)
    requires 0 < |cands|
    ensures EnqueueChildren(pow2, q, now, cands)
         == EnqueueChildren(pow2, QueueNodeActivation(pow2, q, now + cands[0].linkWeight, cands[0].input, cands[0].child), now, cands[1..])
  {
  }

  /** The event a start pair `(start_node, strength)` is seeded as, at time 0. */
  function SeedEvent(pow2: Pow2, p: (Node, real)): Event {
    Event(0.0, Attenuated(pow2, p.1, p.0.weight), p.0.name)
  }

  /** The events the start state seeds: one for every start pair whose initial
      strength passes the gate, in start order. */
  function SeedEvents(pow2: Pow2, start: seq<(Node, real)>): (r: seq<Event>)
    ensures |r| <= |start|
  {
    if |start| == 0 then []
    else
      var rest := SeedEvents(pow2, start[1..]);
      if start[0].1 > Threshold then [SeedEvent(pow2, start[0])] + rest else rest
  }

  /** An event is seeded exactly when some start pair passing the gate gives rise to it. */
  lemma {:induction false} SeedEventsMembers(pow2: Pow2, start: seq<(Node, real)>, e: Event)
    ensures e in SeedEvents(pow2, start) <==>
              exists p :: p in start && Threshold < p.1 && e == SeedEvent(pow2, p)
    decreases |start|
  {
    if |start| > 0 {
      SeedEventsMembers(pow2, start[1..], e);
      assert forall p :: p in start <==> p == start[0] || p in start[1..];
    }
  }

  /** The seeding loop `for (start_node, strength) in start_state: queue_node_activation(tq, 0, ...)`. */
  function Seed(pow2: Pow2, q: TimeQueue, start: seq<(Node, real)>): TimeQueue
    decreases |start|
  {
    if |start| == 0 then q
    else Seed(pow2, QueueNodeActivation(pow2, q, 0.0, start[0].1, start[0].0), start[1..])
  }

  /** Seeding adds exactly the seed events to the queue. */
  lemma {:induction false} SeedContents(pow2: Pow2, q: TimeQueue, start: seq<(Node, real)>)
    ensures multiset(Seed(pow2, q, start).pending) == multiset(q.pending) + multiset(SeedEvents(pow2, start))
    decreases |start|
  {
    if |start| > 0 {
      var p := start[0];
      var head := if p.1 > Threshold then [SeedEvent(pow2, p)] else [];
      var q' := QueueNodeActivation(pow2, q, 0.0, p.1, p.0);
      assert SeedEvents(pow2, start) == head + SeedEvents(pow2, start[1..]);
      if p.1 > Threshold {
        assert multiset(head) == multiset{SeedEvent(pow2, p)};
        assert SeedEvent(pow2, p) == Event(0.0, Attenuated(pow2, p.1, p.0.weight), p.0.name);
      }
      assert multiset(q'.pending) == multiset(q.pending) + multiset(head);
      SeedContents(pow2, q', start[1..]);
      SeedFirst(pow2, q, start);
    }
  }

  /** One turn of the seeding loop. */
  lemma SeedFirst(pow2: Pow2, q: TimeQueue, start: seq<(Node, real)>)
    requires 0 < |start|
    ensures Seed(pow2, q, start) == Seed(pow2, QueueNodeActivation(pow2, q, 0.0, start[0].1, start[0].0), start[1..])
  {
  }

  /** The state after seeding, with `current_time = 0`. */
  function Init(pow2: Pow2, start: seq<(Node, real)>): State {
    State(Seed(pow2, Empty(), start), [], 0.0)
  }

  /** One iteration of `while tq:`. The popped tuple is appended to the history
      unchanged, `current_time` becomes its time, and the spawned children join
      the queue; a popped name missing from the graph or a type missing from the
      schema aborts the run. */
  function Step(g: Graph, schema: seq<TypeName>, pow2: Pow2, st: State): (r: Result<State>)
    requires WellFormed(g)
    requires IsNonEmpty(st.queue)
    ensures var e := PopNode(st.queue).value.0;
            && (r.Err? <==> e.name !in g.nodes || g.nodes[e.name].kind !in schema)
            && (r.Ok? ==> r.value.history == st.history + [e] && r.value.now == e.time)
  {
    var (e, rest) := PopNode(st.queue).value;
    var cands :- Expand(g, schema, pow2, e.name, e.strength);
    var node := g.nodes[e.name];
    Ok(State(EnqueueChildren(pow2, rest, e.time, cands), st.history + [Event(e.time, e.strength, node.name)], e.time))
  }

  /** A successful step leaves in the queue exactly what was left after the pop
      plus the events spawned by the popped node's candidates. */
  lemma StepQueue(g: Graph, schema: seq<TypeName>, pow2: Pow2, st: State)
    requires WellFormed(g)
    requires IsNonEmpty(st.queue)
    requires Step(g, schema, pow2, st).Ok?
    ensures var (e, rest) := PopNode(st.queue).value;
            && Expand(g, schema, pow2, e.name, e.strength).Ok?
            && multiset(Step(g, schema, pow2, st).value.queue.pending) ==
                 multiset(rest.pending) + multiset(Spawned(pow2, e.time, Expand(g, schema, pow2, e.name, e.strength).value))
  {
    var (e, rest) := PopNode(st.queue).value;
    EnqueueChildrenContents(pow2, rest, e.time, Expand(g, schema, pow2, e.name, e.strength).value);
  }

  /** At most `fuel` iterations of the loop, stopping early when the queue empties. */
  function RunSteps(g: Graph, schema: seq<TypeName>, pow2: Pow2, st: State, fuel: nat): (r: Result<State>)
    requires WellFormed(g)
    ensures r.Ok? && NonNegativeLinks(g) && TimeOrdered(st) ==> TimeOrdered(r.value)
    decreases fuel
  {
    if fuel == 0 || !IsNonEmpty(st.queue) then Ok(st)
    else
      var next :- Step(g, schema, pow2, st);
      StepKeepsTimeOrder(g, schema, pow2, st);
      RunSteps(g, schema, pow2, next, fuel - 1)
  }

  /** One loop iteration in terms of RunSteps. */
  lemma RunStepsUnfold(g: Graph, schema: seq<TypeName>, pow2: Pow2, st: State, fuel: nat)
    requires WellFormed(g)
    requires 0 < fuel && IsNonEmpty(st.queue)
    ensures Step(g, schema, pow2, st).Err? ==>
              RunSteps(g, schema, pow2, st, fuel) == Err(Step(g, schema, pow2, st).error)
    ensures Step(g, schema, pow2, st).Ok? ==>
              RunSteps(g, schema, pow2, st, fuel) == RunSteps(g, schema, pow2, Step(g, schema, pow2, st).value, fuel - 1)
  {
  }

  /** History times never decrease, none exceeds `current_time`, and no pending
      event is earlier than `current_time`. */
  predicate TimeOrdered(st: State) {
    && (forall i, j :: 0 <= i < j < |st.history| ==> st.history[i].time <= st.history[j].time)
    && (forall i :: 0 <= i < |st.history| ==> st.history[i].time <= st.now)
    && (forall e :: e in st.queue.pending ==> st.now <= e.time)
  }

  /** Every seed event is at time 0, so the seeded state is time-ordered. */
  lemma InitTimeOrdered(pow2: Pow2, start: seq<(Node, real)>)
    ensures forall e :: e in Init(pow2, start).queue.pending ==> e.time == 0.0
    ensures TimeOrdered(Init(pow2, start))
  {
    var st := Init(pow2, start);
    SeedContents(pow2, Empty(), start);
    forall e | e in st.queue.pending
      ensures e.time == 0.0
    {
      assert e in multiset(st.queue.pending);
      assert e in SeedEvents(pow2, start);
      SeedEventsMembers(pow2, start, e);
    }
  }

  /** With nonnegative link weights one step keeps the history in time order. */
  lemma StepKeepsTimeOrder(g: Graph, schema: seq<TypeName>, pow2: Pow2, st: State)
    requires WellFormed(g)
    requires IsNonEmpty(st.queue)
    requires Step(g, schema, pow2, st).Ok?
    ensures NonNegativeLinks(g) && TimeOrdered(st) ==> TimeOrdered(Step(g, schema, pow2, st).value)
  {
    if NonNegativeLinks(g) && TimeOrdered(st) {
      var e := PopNode(st.queue).value.0;
      assert st.now <= e.time;
      StepQueueNotEarlier(g, schema, pow2, st);
    }
  }

  /** With nonnegative link weights nothing left in the queue after a step is
      earlier than the event that step popped. */
  lemma StepQueueNotEarlier(g: Graph, schema: seq<TypeName>, pow2: Pow2, st: State)
    requires WellFormed(g) && NonNegativeLinks(g)
    requires IsNonEmpty(st.queue)
    requires Step(g, schema, pow2, st).Ok?
    ensures forall x :: x in Step(g, schema, pow2, st).value.queue.pending ==> PopNode(st.queue).value.0.time <= x.time
  {
    var st' := Step(g, schema, pow2, st).value;
    var (e, rest) := PopNode(st.queue).value;
    var cands := Expand(g, schema, pow2, e.name, e.strength).value;
    CandidatesHaveNonNegativeWeights(g, schema, pow2, e.name, e.strength);
    StepQueue(g, schema, pow2, st);
    forall x | x in st'.queue.pending
      ensures e.time <= x.time
    {
      assert x in multiset(st'.queue.pending);
      if x in multiset(rest.pending) {
        assert x in multiset(st.queue.pending);
        assert EventLe(e, x);
      } else {
        assert x in Spawned(pow2, e.time, cands);
        SpawnedMembers(pow2, e.time, cands, x);
      }
    }
  }


  /** With nonnegative link weights, a successful run from the seeded state records
      its events in nondecreasing time order. */
  lemma RunFromInitTimeOrdered(g: Graph, schema: seq<TypeName>, pow2: Pow2, start: seq<(Node, real)>, fuel: nat)
    requires WellFormed(g)
    ensures var r := RunSteps(g, schema, pow2, Init(pow2, start), fuel);
            r.Ok? && NonNegativeLinks(g) ==>
              forall i, j :: 0 <= i < j < |r.value.history| ==> r.value.history[i].time <= r.value.history[j].time
  {
    InitTimeOrdered(pow2, start);
  }

  /** `algo`: seed, then pop and expand one event per iteration while the queue is
      nonempty, for at most `fuel` iterations. With nonnegative link weights the
      recorded times never decrease. */
  method Algo(g: Graph, start: seq<(Node, real)>, schema: seq<TypeName>, pow2: Pow2, fuel: nat)
    returns (r: Result<State>)
    requires WellFormed(g)
    ensures r == RunSteps(g, schema, pow2, Init(pow2, start), fuel)
    ensures r.Ok? ==> |r.value.history| <= fuel
    ensures r.Ok? && |r.value.history| < fuel ==> !IsNonEmpty(r.value.queue)
    ensures r.Ok? && NonNegativeLinks(g) ==>
              forall i, j :: 0 <= i < j < |r.value.history| ==> r.value.history[i].time <= r.value.history[j].time
  {
    var st := Init(pow2, start);
    ghost var total := RunSteps(g, schema, pow2, st, fuel);
    var left: nat := fuel;
    while 0 < left && IsNonEmpty(st.queue)
      invariant left <= fuel
      invariant |st.history| == fuel - left
      invariant total == RunSteps(g, schema, pow2, st, left)
      decreases left
    {
      var next := Step(g, schema, pow2, st);
      RunStepsUnfold(g, schema, pow2, st, left);
      if next.Err? {
        return Err(next.error);
      }
      st := next.value;
      left := left - 1;
    }
    RunFromInitTimeOrdered(g, schema, pow2, start, fuel);
    return Ok(st);
  }

  /** A node without links, seeded alone with a strength that passes the gate, is
      recorded once, at time 0, with its attenuated strength, and the run ends there. */
  lemma IsolatedNodeRun(pow2: Pow2, n: Node, strength: real, schema: seq<TypeName>, fuel: nat)
    requires Threshold < strength && n.kind in schema && 0 < fuel
    ensures var g := Graph(map[n.name := n], map[n.name := []]);
            var e := Event(0.0, Attenuated(pow2, strength, n.weight), n.name);
            RunSteps(g, schema, pow2, Init(pow2, [(n, strength)]), fuel) == Ok(State(Empty(), [e], 0.0))
  {
    var g := Graph(map[n.name := n], map[n.name := []]);
    var e := Event(0.0, Attenuated(pow2, strength, n.weight), n.name);
    var st := Init(pow2, [(n, strength)]);
    var q1 := QueueNodeActivation(pow2, Empty(), 0.0, strength, n);
    assert [(n, strength)][1..] == [];
    assert Seed(pow2, Empty(), [(n, strength)]) == Seed(pow2, q1, []);
    assert Seed(pow2, q1, []) == q1;
    GateOpen(pow2, Empty(), 0.0, strength, n);
    assert st.queue == AddNode(Empty(), 0.0, Attenuated(pow2, strength, n.weight), n.name);
    FreshQueueRoundTrip(0.0, Attenuated(pow2, strength, n.weight), n.name);
    assert PopNode(st.queue) == Some((e, Empty()));
    var valid := ValidTypesFollowing(n.kind, schema);
    assert valid.Ok?;
    assert FilterLinks(g, pow2, valid.value, [], e.strength) == [];
    assert Expand(g, schema, pow2, n.name, e.strength) == Ok([]);
    assert EnqueueChildren(pow2, Empty(), 0.0, []) == Empty();
    var st' := State(Empty(), [e], 0.0);
    assert st.history + [Event(e.time, e.strength, g.nodes[e.name].name)] == [e];
    assert Step(g, schema, pow2, st) == Ok(st');
    RunStepsUnfold(g, schema, pow2, st, fuel);
    assert RunSteps(g, schema, pow2, st', fuel - 1) == Ok(st');
  }

  /** The single-node run (one node, no links, seeded with strength 1): one history
      entry at time 0 with strength `1 * node_strength(0) = 1`, and an empty queue. */
  lemma SingleNodeRun(pow2: Pow2)
    ensures var a := Node("value_prop", "value_prop", 0.0);
            var g := Graph(map["value_prop" := a], map["value_prop" := []]);
            RunSteps(g, ["value_prop"], pow2, Init(pow2, [(a, 1.0)]), 2)
              == Ok(State(Empty(), [Event(0.0, 1.0, "value_prop")], 0.0))
  {
    IsolatedNodeRun(pow2, Node("value_prop", "value_prop", 0.0), 1.0, ["value_prop"], 2);
  }

  /** The gate looks at the incoming strength only: a seed of strength 1 on a node of
      weight 5 passes it and is recorded with strength 1/32, below THRESHOLD. */
  lemma RecordedStrengthMayBeBelowThreshold(pow2: Pow2)
    ensures var b := Node("B", "t", 5.0);
            var g := Graph(map["B" := b], map["B" := []]);
            && RunSteps(g, ["t"], pow2, Init(pow2, [(b, 1.0)]), 1)
                 == Ok(State(Empty(), [Event(0.0, 1.0 / 32.0, "B")], 0.0))
            && 1.0 / 32.0 <= Threshold
  {
    AttenuationAtNatural(pow2, 5);
    assert Exp2(5) == 32.0;
    assert Attenuated(pow2, 1.0, 5.0) == 1.0 / 32.0;
    IsolatedNodeRun(pow2, Node("B", "t", 5.0), 1.0, ["t"], 1);
  }
}

=== FILE: propagation.dfy ===
/** The expansion step both engines share: look a popped node up, find the
    schema-adjacent types, and list its valid children with the strength that
    reaches each of them. */
module Propagation {
  import opened Results
  import opened GraphModel
  import opened SchemaAdjacency
  import opened ActivationMath

  /** A valid child, the weight of the link to it, and the incoming strength
      `parent * link_strength(weight) * ACTIVATION_DECAY` arriving over that link. */
  datatype Candidate = Candidate(child: Node, linkWeight: real, input: real)

  /** The candidate a parent of strength `strength` produces over link `l`. */
  function CandidateOf(g: Graph, pow2: Pow2, l: Link, strength: real): Candidate
    requires l.target in g.nodes
  {
    Candidate(g.nodes[l.target], l.weight, ChildInput(pow2, strength, l.weight))
  }

  /** `valid_children`: the links, in successor order, whose target's type is in `valid`. */
  function FilterLinks(g: Graph, pow2: Pow2, valid: set<TypeName>, links: seq<Link>, strength: real): (r: seq<Candidate>)
    requires forall l :: l in links ==> l.target in g.nodes
    ensures |r| <= |links|
  {
    if |links| == 0 then []
    else
      var rest := FilterLinks(g, pow2, valid, links[1..], strength);
      if g.nodes[links[0].target].kind in valid then [CandidateOf(g, pow2, links[0], strength)] + rest
      else rest
  }

  /** A candidate is listed exactly when some link to a node of a valid type produces it. */
  lemma {:induction false} FilterLinksMembers(g: Graph, pow2: Pow2, valid: set<TypeName>, links: seq<Link>, strength: real, c: Candidate)
    requires forall l :: l in links ==> l.target in g.nodes
    ensures c in FilterLinks(g, pow2, valid, links, strength) <==>
              exists l :: l in links && g.nodes[l.target].kind in valid && c == CandidateOf(g, pow2, l, strength)
    decreases |links|
  {
    if |links| > 0 {
      FilterLinksMembers(g, pow2, valid, links[1..], strength, c);
      assert forall l :: l in links <==> l == links[0] || l in links[1..];
    }
  }

  /** Everything the engines do with a popped `(strength, name)` before scheduling:
      the node lookup (NodeNotFound), the schema lookup of its type (InvalidType),
      and the candidates over its links to schema-adjacent children. */
  function Expand(g: Graph, schema: seq<TypeName>, pow2: Pow2, parent: Name, strength: real): (r: Result<seq<Candidate>>)
    requires WellFormed(g)
    ensures r.Err? <==> parent !in g.nodes || g.nodes[parent].kind !in schema
    ensures parent !in g.nodes ==> r == Err(NodeNotFound(parent))
    ensures parent in g.nodes && g.nodes[parent].kind !in schema ==> r == Err(InvalidType(g.nodes[parent].kind))
    ensures r.Ok? ==> |r.value| <= |g.adj[parent]|
  {
    if parent !in g.nodes then Err(NodeNotFound(parent))
    else
      var valid :- ValidTypesFollowing(g.nodes[parent].kind, schema);
      var links := g.adj[parent];
      assert forall l :: l in links ==> l.target in g.nodes by {
        forall l | l in links ensures l.target in g.nodes {
          var i :| 0 <= i < |links| && links[i] == l;
        }
      }
      Ok(FilterLinks(g, pow2, valid, links, strength))
  }

  /** On success, a candidate is listed exactly when a link of the parent leads to a
      node whose type follows the parent's type in the schema and produces it. */
  lemma ExpandMembers(g: Graph, schema: seq<TypeName>, pow2: Pow2, parent: Name, strength: real, c: Candidate)
    requires WellFormed(g)
    requires Expand(g, schema, pow2, parent, strength).Ok?
    ensures c in Expand(g, schema, pow2, parent, strength).value <==>
              exists l :: && l in g.adj[parent]
                          && g.nodes[l.target].kind in ValidTypesFollowing(g.nodes[parent].kind, schema).value
                          && c == CandidateOf(g, pow2, l, strength)
  {
    var links := g.adj[parent];
    assert forall l :: l in links ==> l.target in g.nodes by {
      forall l | l in links ensures l.target in g.nodes {
        var i :| 0 <= i < |links| && links[i] == l;
      }
    }
    FilterLinksMembers(g, pow2, ValidTypesFollowing(g.nodes[parent].kind, schema).value, links, strength, c);
  }

  /** With nonnegative link weights, every candidate's link weight is nonnegative. */
  lemma CandidatesHaveNonNegativeWeights(g: Graph, schema: seq<TypeName>, pow2: Pow2, parent: Name, strength: real)
    requires WellFormed(g) && NonNegativeLinks(g)
    requires Expand(g, schema, pow2, parent, strength).Ok?
    ensures forall c :: c in Expand(g, schema, pow2, parent, strength).value ==> 0.0 <= c.linkWeight
  {
    var cs := Expand(g, schema, pow2, parent, strength).value;
    forall c | c in cs ensures 0.0 <= c.linkWeight {
      ExpandMembers(g, schema, pow2, parent, strength, c);
      var l :| l in g.adj[parent] && g.nodes[l.target].kind in ValidTypesFollowing(g.nodes[parent].kind, schema).value
               && c == CandidateOf(g, pow2, l, strength);
      var i :| 0 <= i < |g.adj[parent]| && g.adj[parent][i] == l;
    }
  }
}

=== FILE: results.dfy ===
/** Failure-compatible result type and the engine's error taxonomy.
    On a graph satisfying `GraphModel.WellFormed`, every exception the
    prototypes can raise on a malformed schema, a missing node or a bad link
    weight becomes an `Error` value instead of a precondition. */
module Results {

  /** The errors a propagation run can surface; the run aborts on the first one. */
  datatype Error =
    | NodeNotFound(name: string)      // `graph.nodes[name]` raises KeyError
    | InvalidType(kind: string)       // `schema.index(kind)` raises ValueError
    | InvalidWeight(weight: real)     // stepwise transfer time `ceil(weight) <= 0`

  datatype Option<+T> = None | Some(value: T)

  datatype Result<+T> = Ok(value: T) | Err(error: Error) {

    predicate IsFailure() {
      Err?
    }

    function PropagateFailure<U>(): Result<U>
      requires Err?
    {
      Err(error)
    }

    function Extract(): T
      requires Ok?
    {
      value
    }
  }
}

=== FILE: schema.dfy ===
/** Schema adjacency: a node of a given type may only spread activation to
    nodes whose type sits immediately left or right of it in the schema. */
module SchemaAdjacency {
  import opened Results
  import opened GraphModel

  /** Position of the FIRST occurrence of `kind` in `schema` (Python's `list.index`). */
  function IndexOf(schema: seq<TypeName>, kind: TypeName): (r: Option<nat>)
    ensures r.None? <==> kind !in schema
    ensures r.Some? ==> r.value < |schema| && schema[r.value] == kind
    ensures r.Some? ==> forall j :: 0 <= j < r.value ==> schema[j] != kind
  {
    if |schema| == 0 then None
    else if schema[0] == kind then Some(0)
    else match IndexOf(schema[1..], kind)
      case None => None
      case Some(i) => Some(i + 1)
  }

  /** `get_valid_types_following`: the schema entries just before and just after
      the first occurrence of `kind`; fails with InvalidType when `kind` is absent. */
  function ValidTypesFollowing(kind: TypeName, schema: seq<TypeName>): (r: Result<set<TypeName>>)
    ensures r.Err? <==> kind !in schema
    ensures r.Err? ==> r.error == InvalidType(kind)
    ensures r.Ok? ==> |r.value| <= 2
    ensures r.Ok? ==> forall t :: t in r.value <==>
              exists j :: 0 <= j < |schema| && schema[j] == t && Neighbours(j, IndexOf(schema, kind).value)
    ensures r.Ok? && |schema| == 1 ==> r.value == {}
  {
    match IndexOf(schema, kind)
    case None => Err(InvalidType(kind))
    case Some(i) =>
      var left := if i >= 1 then {schema[i - 1]} else {};
      var right := if i + 1 < |schema| then {schema[i + 1]} else {};
      Ok(left + right)
  }

  /** Positions `j` and `i` are one apart in either direction. */
  predicate Neighbours(j: int, i: int) {
    j == i - 1 || j == i + 1
  }

  /** A schema of pairwise distinct type symbols. */
  predicate Distinct(schema: seq<TypeName>) {
    forall i, j :: 0 <= i < j < |schema| ==> schema[i] != schema[j]
  }

  /** On a schema of distinct types, adjacency is symmetric: `b` may be reached from
      `a` exactly when `a` may be reached from `b`. */
  lemma AdjacencyIsSymmetric(schema: seq<TypeName>, a: TypeName, b: TypeName)
    requires Distinct(schema)
    requires a in schema && b in schema
    ensures b in ValidTypesFollowing(a, schema).value <==> a in ValidTypesFollowing(b, schema).value
  {
    var ia := IndexOf(schema, a).value;
    var ib := IndexOf(schema, b).value;
    if b in ValidTypesFollowing(a, schema).value {
      var j :| 0 <= j < |schema| && schema[j] == b && Neighbours(j, ia);
      assert j == ib;
      assert schema[ia] == a && Neighbours(ia, ib);
    }
    if a in ValidTypesFollowing(b, schema).value {
      var j :| 0 <= j < |schema| && schema[j] == a && Neighbours(j, ib);
      assert j == ia;
      assert schema[ib] == b && Neighbours(ib, ia);
    }
  }
}
